=== FILE: README.md ===
# Binary tree exercises, modelled in Dafny

This project models four Python classroom exercises on binary trees.
Each becomes immutable Dafny datatypes with functions and methods that have
no side effects, and each comes with proofs of the properties the code is meant to have.

- **AVL tree** (`ArvoreAVL`, module `AvlTree`).
  - Each node caches its height; a leaf has height 1 and an absent child height 0.
  - Insertion uses the four LL/RR/LR/RL rotations, chosen by comparing the new key with the heavy child's key. A duplicate key is rejected.
  - Deletion replaces a node that has at most one child by that child, or by nothing when it has none. A node with two children takes its in-order successor's key, and the successor is deleted from the right subtree. The nodes on the way back up, and a two-child node itself, are then rebalanced using the heavy child's balance factor.
  - Also modelled: the pruned in-order range query and the iterative depth lookup.
- **Strict binary search tree** (`BinarySearchTree` of the second exercise, module `SearchTree`).
  - Insertion ignores a value already present.
  - Also modelled: search, deletion with the minimum of the right subtree, height in edges (-1 for the empty tree), and depth (`None` when absent).
- **Search tree with traversals** (third exercise, module `TraversalTree`).
  - Equal values go right, so duplicates are kept.
  - In-order, pre-order and post-order traversals of a non-empty tree.
- **Arithmetic expression trees** (first exercise).
  - The tokenizer (module `Tokens`): spaces are removed, then a maximal digit run or one of `( ) + - * /` is taken as a token.
  - The shunting-yard conversion to postfix (module `ShuntingYard`).
  - In module `ExprTree`:
    - the postfix-to-tree build;
    - the fully parenthesised printer;
    - evaluation;
    - the generator of a random tree with `k` operators.

Module `BinaryTree` holds the plain tree shared by the two search-tree exercises. Module `Wrappers` holds `Option` and `Result`.

Where the Python updates nodes in place, the model returns the updated subtree instead. Examples are linking a new child in the third exercise's `_insert` and storing a height in `_atualizar_altura`.

- A raised `ValueError` becomes a `Failure` value.
- A method returning `None` becomes an `Option`.
- The random number generator becomes a parameter: a function from draw positions to natural numbers.

The four exercises are independent programs, and all four are modelled.

## Model

| member | source | states |
|---|---|---|
| `AvlTree.UpdateHeight` | atv5/atividade_5.py:41-49 | The node keeps its key and children, and its keys and in-order sequence are unchanged. With correct heights below, every cached height is correct afterwards. |
| `AvlTree.Height` | atv5/atividade_5.py:23-28 | The cached height, 0 for an absent node. Its meaning is stated by `AvlTree.CachedHeightIsReal`. |
| `AvlTree.BalanceFactor` | atv5/atividade_5.py:31-38 | Left minus right cached height, 0 for an absent node. Its meaning is stated by `AvlTree.BalanceFactorOfAvl`. |
| `AvlTree.CachedHeightIsReal` | atv5/atividade_5.py:23-28 | When every cached height is 1 + max of the children's, the cached height equals the height computed from the shape (0 for an absent node, at least 1 for a node). |
| `AvlTree.BalanceFactorOfAvl` | atv5/atividade_5.py:31-38 | In an AVL tree the balance factor lies in [-1, 1] and equals the difference of the children's real heights. |
| `AvlTree.MinValueNode` | atv5/atividade_5.py:52-59 | Nil exactly for Nil. Otherwise the result has no left child and its key is stored in the subtree. On a search tree that key is the least. |
| `AvlTree.RotateRight` | atv5/atividade_5.py:62-80 | Needs a left child. The left child becomes the root. The in-order sequence and key set are unchanged, search order is kept, and both recomputed heights are correct. |
| `AvlTree.RotateLeft` | atv5/atividade_5.py:83-101 | The mirror image of the right rotation, with the same guarantees. |
| `AvlTree.RotationKeepsOrder` | atv5/atividade_5.py:62-101 | `(a x b) y c` is a search tree exactly when `a x (b y c)` is. |
| `AvlTree.RotateRightRestores` | atv5/atividade_5.py:133-135 | Left-left case: a node two levels too heavy on the left, with a left-heavy or level left child, is AVL after one right rotation. Its resulting height is given exactly. |
| `AvlTree.RotateLeftRestores` | atv5/atividade_5.py:136-138 | Right-right case: the mirror image. |
| `AvlTree.RotateLeftRightRestores` | atv5/atividade_5.py:139-142 | Left-right case: a left child that is right-heavy is fixed by a left rotation of the child, then a right rotation of the node. The result is AVL and two levels above the right subtree: its height is that subtree's height + 2. |
| `AvlTree.RotateRightLeftRestores` | atv5/atividade_5.py:143-146 | Right-left case: the mirror image. The result is AVL and its height is the left subtree's height + 2. |
| `AvlTree.Insert` | atv5/atividade_5.py:111-149 | Fails with `DuplicateKey` exactly when the key is present. Otherwise the result is AVL with keys = old keys + {k}. It is at most one level taller, and taller only on the side where `k` went. |
| `AvlTree.InsertLeftRebalances` | atv5/atividade_5.py:120-142 | After an insertion into the left subtree, the grandchild any chosen double rotation needs is present, and the node is AVL again after rebalancing. |
| `AvlTree.InsertRightRebalances` | atv5/atividade_5.py:122-146 | The mirror image, for insertion into the right subtree. |
| `AvlTree.RebalanceInsert` | atv5/atividade_5.py:127-149 | The rebalancing step after an insertion. Its effect is stated by `AvlTree.InsertLeftRebalances` and `AvlTree.InsertRightRebalances`. |
| `AvlTree.RebalanceDeleteRestores` | atv5/atividade_5.py:185-210 | A node over two AVL subtrees whose heights differ by at most 2 is AVL after one deletion rebalancing step. Its keys are kept, it is at most one level above the taller child, and a balanced node only has its height refreshed. |
| `AvlTree.RebalanceDeleteLeftHeavy` | atv5/atividade_5.py:194-200 | Left-heavy by 2: the right rotation (child level or left-heavy) or the left-right double rotation (child right-heavy) gives an AVL tree with the same keys. |
| `AvlTree.RebalanceDeleteRightHeavy` | atv5/atividade_5.py:201-207 | Right-heavy by 2: the mirror image. |
| `AvlTree.RebalanceDelete` | atv5/atividade_5.py:185-210 | The rebalancing step after a deletion. Its effect is stated by `AvlTree.RebalanceDeleteRestores`. |
| `AvlTree.Delete` | atv5/atividade_5.py:155-210 | On an AVL tree the result is AVL, has keys = old keys - {k}, and is at most one level lower. Deleting an absent key returns the tree unchanged. |
| `AvlTree.DeleteLeftRebalances` | atv5/atividade_5.py:165-166 | Deleting in the left subtree, then rebalancing, deletes `k` from the whole tree, and leaves the tree unchanged when `k` is absent. |
| `AvlTree.DeleteRightRebalances` | atv5/atividade_5.py:167-168 | The mirror image, for the right subtree. |
| `AvlTree.DeleteSuccessorRebalances` | atv5/atividade_5.py:180-183 | Two children: copying in the right subtree's minimum and deleting it there deletes the node's key from the whole tree. |
| `AvlTree.RangeQuery` | atv5/atividade_5.py:216-237 | Every returned key is in the tree and within [lo, hi]. When lo > hi the result is empty. |
| `AvlTree.RangeQueryCorrect` | atv5/atividade_5.py:216-237 | On a search tree the result holds exactly the keys in [lo, hi], in strictly ascending order. |
| `AvlTree.RangeQueryIsFilteredInOrder` | atv5/atividade_5.py:223-234 | On a search tree the pruned walk equals filtering the full in-order sequence, so pruning skips no key in range. |
| `AvlTree.InOrderOfBstIncreases` | atv5/atividade_5.py:223-234 | The in-order sequence of a search tree is strictly increasing. |
| `AvlTree.Depth` | atv5/atividade_5.py:240-256 | A result d >= 0 is a level at which `k` sits. On a search tree, -1 is returned exactly when `k` is absent, including the empty tree. |
| `AvlTree.AtDepthUnique` | atv5/atividade_5.py:240-256 | In a search tree a key sits at one level only, so the depth found is the key's depth. |
| `SearchTree.Search` | atv2/atividade_2.py:31-41 | A true answer means the value is stored. |
| `SearchTree.SearchFindsValues` | atv2/atividade_2.py:31-41 | On a search tree, search answers true exactly when the value is stored. |
| `SearchTree.Insert` | atv2/atividade_2.py:18-27 | Values become old values + {v}, and strict order left < node < right is kept. When search would find `v`, the tree is returned unchanged. |
| `SearchTree.InsertPresentIsIdentity` | atv2/atividade_2.py:22-26 | Inserting a value a search tree already holds changes nothing. |
| `SearchTree.MinValueNode` | atv2/atividade_2.py:50-54 | Returns a node with no left child whose value is stored in the tree. On a search tree that value is the least. |
| `SearchTree.Delete` | atv2/atividade_2.py:56-78 | Never adds values, and returns the tree unchanged when `v` is absent. On a search tree the result is a search tree holding old values - {v}. |
| `SearchTree.Height` | atv2/atividade_2.py:82-87 | At least -1, and -1 exactly for the empty tree. `SearchTree.HeightIsDeepestLevel` shows it is the deepest occupied level. |
| `SearchTree.HeightIsDeepestLevel` | atv2/atividade_2.py:82-87 | The height is -1 exactly for the empty tree. No node lies deeper than the height, and a non-empty tree has a node at exactly that depth. |
| `SearchTree.DepthFrom` | atv2/atividade_2.py:92-100 | A found depth, counted from `d`, is a level at which `v` sits. |
| `SearchTree.Depth` | atv2/atividade_2.py:91-101 | A found depth is a level at which `v` sits. |
| `SearchTree.DepthFindsValues` | atv2/atividade_2.py:91-101 | On a search tree the depth is found exactly for stored values, and it equals every level at which `v` sits. |
| `TraversalTree.Insert` | atv3/atividade_3.py:18-34 | The multiset of values gains exactly the inserted value; duplicates are kept. |
| `TraversalTree.InsertAddsOneNode` | atv3/atividade_3.py:24-34 | Insertion adds one node, and the value set becomes old values + {v}. |
| `TraversalTree.InsertKeepsOrder` | atv3/atividade_3.py:24-34 | Insertion keeps left < node <= right at every node. |
| `TraversalTree.InsertAll` | atv3/atividade_3.py:103-105 | Inserting a list one value at a time adds the list's multiset and keeps the order. |
| `TraversalTree.InOrder` | atv3/atividade_3.py:39-49 | Non-empty. Its contents are stated by `TraversalTree.InOrderListsElements` and `TraversalTree.InOrderNonDecreasing`. |
| `TraversalTree.PreOrder` | atv3/atividade_3.py:52-62 | Non-empty, and starts with the root value. |
| `TraversalTree.PostOrder` | atv3/atividade_3.py:65-75 | Non-empty, and ends with the root value. |
| `TraversalTree.InOrderListsElements` | atv3/atividade_3.py:39-49 | The in-order traversal lists the tree's multiset of values: every stored value, as often as it is stored. |
| `TraversalTree.PreOrderListsElements` | atv3/atividade_3.py:52-62 | The pre-order traversal lists the tree's multiset of values. |
| `TraversalTree.PostOrderListsElements` | atv3/atividade_3.py:65-75 | The post-order traversal lists the tree's multiset of values. |
| `TraversalTree.TraversalsArePermutations` | atv3/atividade_3.py:39-75 | The three traversals are permutations of each other, and each has as many entries as the tree has nodes. |
| `TraversalTree.InOrderNonDecreasing` | atv3/atividade_3.py:39-49 | The in-order traversal of a search tree never decreases. |
| `TraversalTree.TreeSortsValues` | atv3/atividade_3.py:103-108 | Inserting a non-empty list, then reading in order, gives the list sorted with duplicates. |
| `Tokens.ShowNat` | atv1/atividade_1.py:55 | The decimal text of a natural number is a non-empty digit string without a leading zero. |
| `Tokens.ParseShowNat` | atv1/atividade_1.py:45 | Reading back the text of a natural number gives the number. |
| `Tokens.RemoveSpaces` | atv1/atividade_1.py:14 | The result has no spaces and is no longer than the input. Text without spaces is returned unchanged. |
| `Tokens.RemoveSpacesAppend` | atv1/atividade_1.py:14 | Space removal distributes over concatenation, and a lone space disappears. So every other character is kept, in order. |
| `Tokens.DigitRunIsMaximal` | atv1/atividade_1.py:14 | The digit run at the start of a string is all digits and is followed by a non-digit or the end. |
| `Tokens.Tokenize` | atv1/atividade_1.py:13-14 | Every token is a digit run or one of the six symbols. |
| `Tokens.ScanWellFormed` | atv1/atividade_1.py:14 | Every scanned token is a digit run or one of the six symbols. |
| `Tokens.TokenizeSpellsInput` | atv1/atividade_1.py:13-14 | For input over digits, spaces and the six symbols, the tokens spell the input with spaces removed, and no two number tokens are adjacent. |
| `Tokens.ScanAppend` | atv1/atividade_1.py:14 | Scanning two pieces separately equals scanning them together when no digit run straddles the seam. |
| `ShuntingYard.OperatorStop` | atv1/atividade_1.py:26-27 | Popping for an operator removes exactly the operators on top that bind at least as tightly, and stops at the first entry that does not. |
| `ShuntingYard.ParenStop` | atv1/atividade_1.py:32-33 | Popping for ")" removes exactly the entries above the topmost "(". |
| `ShuntingYard.InfixToPostfix` | atv1/atividade_1.py:18-38 | Converts infix tokens to postfix. Its meaning is stated by `ShuntingYard.InfixToPostfixKeepsTokens`, the two three-operand precedence lemmas and `ExprTree.InfixToPostfixOfTree`. |
| `ShuntingYard.InfixToPostfixKeepsTokens` | atv1/atividade_1.py:18-38 | Number tokens keep their order and the multiset of operators is kept. Every output token is a number, an operator or "(". The output has as many "(" as the input left unclosed, so none for balanced input. |
| `ShuntingYard.RunKeepsPrecedenceOrder` | atv1/atividade_1.py:19-35 | Two adjacent operators on the stack always have strictly increasing precedence from bottom to top. |
| `ShuntingYard.TighterOperatorAppliesFirst` | atv1/atividade_1.py:19-28 | For numbers a, b, c, `a o1 b o2 c` with `o2` binding more tightly converts to `a b c o2 o1`. |
| `ShuntingYard.LooserOrEqualOperatorAppliesLast` | atv1/atividade_1.py:19-28 | When `o1` binds at least as tightly as `o2`, `a o1 b o2 c` converts to `a b o1 c o2`, so one precedence level associates to the left. |
| `ExprTree.BuildStackSpellsInput` | atv1/atividade_1.py:41-49 | Whatever the build leaves on its stack spells the tokens it read in post-order, with numbers in shortest spelling. |
| `ExprTree.BuildInvertsPostOrder` | atv1/atividade_1.py:41-50 | When well-formed postfix leaves one tree, `Build` returns it, and its post-order is the input with numbers in shortest spelling. |
| `ExprTree.BuildPostOrder` | atv1/atividade_1.py:41-50 | For a printable tree (non-negative leaves, only the four operators), building from its post-order gives the tree back. |
| `ExprTree.Build` | atv1/atividade_1.py:41-50 | Fails with `StackUnderflow` exactly when some non-number token finds fewer than two trees beneath it. Every token that is not a digit run takes the popping branch, including `(` and stray text. The count is the trees before plus the numbers read minus the non-number tokens read. Fails with `EmptyStack` exactly when nothing underflows and no tree is left. Successful builds are covered by `ExprTree.BuildInvertsPostOrder`. |
| `ExprTree.BuildStackUnderflow` | atv1/atividade_1.py:43-49 | From any starting stack, the loop fails exactly at an underflowing operator, and only with `StackUnderflow`. Otherwise it leaves as many trees as the count predicts. |
| `ExprTree.SecondOperatorUnderflows` | atv1/atividade_1.py:46-48 | In `1 2 + +` the second operator finds a single tree, so the build underflows. |
| `ExprTree.InfixParensCountOperators` | atv1/atividade_1.py:53-56 | The printed text has exactly one "(" and one ")" per operator node. |
| `ExprTree.TreeToInfix` | atv1/atividade_1.py:53-56 | Prints a tree as fully parenthesised text. Its meaning is stated by `ExprTree.InfixParensCountOperators`, `ExprTree.TokenizeTreeToInfix` and `ExprTree.PrintParseRoundTrip`. |
| `ExprTree.TokenizeTreeToInfix` | atv1/atividade_1.py:53-56 | For a printable tree (non-negative leaves, only the four operators), tokenising its printed text gives its infix tokens: "(", left, operator, right, ")". |
| `ExprTree.InfixToPostfixOfTree` | atv1/atividade_1.py:18-38 | For a printable tree (non-negative leaves, only the four operators), the shunting-yard conversion of its infix tokens is its post-order. |
| `ExprTree.PrintParseRoundTrip` | atv1/atividade_1.py:53-56 | Printing a tree, tokenising, converting to postfix and building gives the same tree back. |
| `ExprTree.Eval` | atv1/atividade_1.py:60-67 | Computes the value of a tree over + - *. Its meaning is stated by `ExprTree.EvalIsPostfixValue`. |
| `ExprTree.EvalIsPostfixValue` | atv1/atividade_1.py:60-67 | For a printable tree (non-negative leaves) whose operators are + - *, the value equals what a stack machine computes from its post-order. |
| `ExprTree.LeavesOutnumberOperators` | atv1/atividade_1.py:115 | A tree has one more leaf than it has operators. |
| `ExprTree.AvoidZeroDivisor` | atv1/atividade_1.py:124-126 | A zero right operand under "/" is redrawn from [1, 20], consuming one draw. Anything else passes through unchanged and consumes nothing. |
| `ExprTree.Gen` | atv1/atividade_1.py:116-127 | The generated tree has exactly k operators, leaves in [1, 20], and only the four operators. At least one draw is consumed. |
| `ExprTree.GenShape` | atv1/atividade_1.py:116-127 | A generated tree has k operators and k + 1 leaves, and its printed text parses back to it. |
| `ExprTree.FixedExpression` | atv1/atividade_1.py:98-101 | The text `(((7+3)*(5-2))/(10*20))` is the print of the fixed tree. It converts to `7 3 + 5 2 - * 10 20 * /` and builds the fixed tree. |

## Left out

- Graphviz drawing (`draw_tree`, `visualize`, `gerar_grafo`, `_adicionar_no`): it writes image files through an external library and uses object identity.
- The demonstration code at the end of each file: printing, `random.sample`, and the `isclose` check on the fixed expression's value.
- Division in `eval_tree`: Python's `/` gives a float. `ExprTree.Eval` takes only trees whose operators are + - *.
- Randomness: `random.randint` and `random.choice` read a draw function `rng: nat -> nat` at successive positions, in the order `gen_tree_with_k_ops` draws them. `randint(lo, hi)` is `lo + rng(i) % (hi - lo + 1)`.
- Unicode digits: Python's `\d` also matches non-ASCII decimal digits, and `int` accepts them. The model's digits are `0` to `9`.
- Aliasing and in-place mutation: trees are immutable values. `gen_tree_with_k_ops` overwrites a leaf's value in place, which is modelled as building a new leaf.
- AvlTree.Insert: requires `IsAvl(t)`. The class only ever holds trees built by its own operations. On other trees the rebalancing in `_inserir_recursivo` may dereference an absent grandchild.
- AvlTree.Delete: requires `IsAvl(t)`, for the same reason.
- TraversalTree.InOrder: requires a non-empty tree. On an empty tree the Python code dereferences `None`. The same holds for `PreOrder` and `PostOrder`.
- ExprTree.BuildInvertsPostOrder: numbers with leading zeros come back in shortest spelling (`int("007")` is 7). This is what `build_tree_from_postfix` does, so the post-order is compared with the normalised input.
- ExprTree.Build: like `build_tree_from_postfix`, it returns the bottom tree when several remain. Only the one-tree case is given a round-trip property.
- ExprTree.PrintParseRoundTrip: proved for trees with non-negative leaves and the four operators. A negative leaf prints as `-n`, which tokenises as an operator followed by a number, so the round trip does not hold for it. The Python parser and generator never make such leaves.
- ShuntingYard.TighterOperatorAppliesFirst: precedence and left association are stated only for three operands, by this lemma and `ShuntingYard.LooserOrEqualOperatorAppliesLast`, together with the stack facts `ShuntingYard.RunKeepsPrecedenceOrder` and `ShuntingYard.OperatorStop`. They are not a general theorem about arbitrary token sequences. Printed trees are fully parenthesised, so every operator there is pushed directly above `(`; `ExprTree.InfixToPostfixOfTree` therefore does not exercise precedence.

=== FILE: avl_tree.dfy ===
/** Model of the AVL tree exercise (`ArvoreAVL`).

    A node stores its key, its two children and a cached height (a leaf has
    height 1, an absent child height 0).  Every recursive step of insertion
    and deletion returns the new root of its subtree, so the operations are
    pure functions from trees to trees.  The class only ever holds trees built
    by its own operations, so insertion and deletion take the AVL invariant
    (`IsAvl`) as their precondition and re-establish it. */
module AvlTree {
  import opened Wrappers
  import BinaryTree

  datatype Tree = Nil | Node(key: int, height: nat, left: Tree, right: Tree)

  /** The only error insertion raises: the key is already present. */
  datatype AvlError = DuplicateKey

  /* ---------------------------------------------------------------------
     Contents and invariants
     --------------------------------------------------------------------- */

  function Keys(t: Tree): set<int> {
    match t
    case Nil => {}
    case Node(k, _, l, r) => Keys(l) + {k} + Keys(r)
  }

  function InOrder(t: Tree): seq<int> {
    match t
    case Nil => []
    case Node(k, _, l, r) => InOrder(l) + [k] + InOrder(r)
  }

  predicate KeysBelow(t: Tree, k: int) {
    forall x :: x in Keys(t) ==> x < k
  }

  predicate KeysAbove(t: Tree, k: int) {
    forall x :: x in Keys(t) ==> k < x
  }

  /** Search-tree order: left keys < node key < right keys, at every node. */
  predicate Bst(t: Tree) {
    match t
    case Nil => true
    case Node(k, _, l, r) => Bst(l) && Bst(r) && KeysBelow(l, k) && KeysAbove(r, k)
  }

  /** Every cached height is 1 + the larger of the children's heights. */
  predicate HeightsOk(t: Tree) {
    match t
    case Nil => true
    case Node(_, h, l, r) => HeightsOk(l) && HeightsOk(r) && h == 1 + BinaryTree.Max(Height(l), Height(r))
  }

  /** |height(left) - height(right)| <= 1 at every node. */
  predicate Balanced(t: Tree) {
    match t
    case Nil => true
    case Node(_, _, l, r) => Balanced(l) && Balanced(r) && -1 <= Height(l) - Height(r) <= 1
  }

  predicate IsAvl(t: Tree) {
    Bst(t) && HeightsOk(t) && Balanced(t)
  }

  /** Reference height, computed from the shape alone (number of nodes on the
      longest root-to-leaf path). */
  function RealHeight(t: Tree): nat {
    match t
    case Nil => 0
    case Node(_, _, l, r) => 1 + BinaryTree.Max(RealHeight(l), RealHeight(r))
  }

  /** `AtDepth(t, k, d)`: a node holding `k` sits `d` edges below the root. */
  predicate AtDepth(t: Tree, k: int, d: nat) {
    match t
    case Nil => false
    case Node(x, _, l, r) =>
      if d == 0 then x == k else AtDepth(l, k, d - 1) || AtDepth(r, k, d - 1)
  }

  /* ---------------------------------------------------------------------
     Height helpers (obter_altura, obter_fator_balanceamento, _atualizar_altura)
     --------------------------------------------------------------------- */

  /** The cached height; an absent node has height 0. */
  function Height(t: Tree): nat {
    if t.Nil? then 0 else t.height
  }

  /** height(left) - height(right); 0 for an absent node. */
  function BalanceFactor(t: Tree): int {
    if t.Nil? then 0 else Height(t.left) - Height(t.right)
  }

  /** Recomputes the cached height of a node from its children's heights. */
  function UpdateHeight(t: Tree): (r: Tree)
    ensures t.Nil? ==> r.Nil?
    ensures t.Node? ==> r.Node? && r.key == t.key && r.left == t.left && r.right == t.right
    ensures Keys(r) == Keys(t) && InOrder(r) == InOrder(t)
    ensures t.Node? && HeightsOk(t.left) && HeightsOk(t.right) ==> HeightsOk(r)
  {
    if t.Nil? then t else t.(height := 1 + BinaryTree.Max(Height(t.left), Height(t.right)))
  }

  lemma {:induction false} CachedHeightIsReal(t: Tree)
    requires HeightsOk(t)
    ensures Height(t) == RealHeight(t)
    ensures t.Node? ==> Height(t) >= 1
  {
    match t
    case Nil =>
    case Node(_, _, l, r) =>
      CachedHeightIsReal(l);
      CachedHeightIsReal(r);
  }

  lemma {:induction false} BalanceFactorOfAvl(t: Tree)
    requires IsAvl(t)
    ensures -1 <= BalanceFactor(t) <= 1
    ensures t.Node? ==> BalanceFactor(t) == RealHeight(t.left) - RealHeight(t.right)
  {
    if t.Node? {
      CachedHeightIsReal(t.left);
      CachedHeightIsReal(t.right);
    }
  }

  /* ---------------------------------------------------------------------
     Minimum (obter_no_valor_minimo)
     --------------------------------------------------------------------- */

  /** The leftmost node of a subtree, or Nil for Nil. */
  function MinValueNode(t: Tree): (r: Tree)
    ensures t.Nil? <==> r.Nil?
    ensures r.Node? ==> r.key in Keys(t) && r.left.Nil?
    ensures r.Node? && Bst(t) ==> forall x :: x in Keys(t) ==> r.key <= x
  {
    if t.Nil? || t.left.Nil? then t else MinValueNode(t.left)
  }

  /* ---------------------------------------------------------------------
     Rotations (_rotacao_direita, _rotacao_esquerda)
     --------------------------------------------------------------------- */

  /** Right rotation: the left child becomes the subtree root.  The pivot's
      height is recomputed before the new root's, so both caches are right. */
  function RotateRight(t: Tree): (r: Tree)
    requires t.Node? && t.left.Node?
    ensures r.Node? && r.key == t.left.key
    ensures InOrder(r) == InOrder(t) && Keys(r) == Keys(t)
    ensures Bst(t) ==> Bst(r)
    ensures HeightsOk(t.left.left) && HeightsOk(t.left.right) && HeightsOk(t.right) ==> HeightsOk(r)
  {
    var x := t.left;
    var pivot := UpdateHeight(Node(t.key, t.height, x.right, t.right));
    RotationKeepsOrder(x.key, t.key, x.left, x.right, t.right, t.height, x.height, x.height, pivot.height);
    UpdateHeight(Node(x.key, x.height, x.left, pivot))
  }

  /** Left rotation: the mirror image of `RotateRight`. */
  function RotateLeft(t: Tree): (r: Tree)
    requires t.Node? && t.right.Node?
    ensures r.Node? && r.key == t.right.key
    ensures InOrder(r) == InOrder(t) && Keys(r) == Keys(t)
    ensures Bst(t) ==> Bst(r)
    ensures HeightsOk(t.left) && HeightsOk(t.right.left) && HeightsOk(t.right.right) ==> HeightsOk(r)
  {
    var y := t.right;
    var pivot := UpdateHeight(Node(t.key, t.height, t.left, y.left));
    RotationKeepsOrder(t.key, y.key, t.left, y.left, y.right, y.height, pivot.height, t.height, y.height);
    UpdateHeight(Node(y.key, y.height, pivot, y.right))
  }

  /** Moving a node across its parent keeps the search-tree order, both ways:
      (a x b) y c is ordered exactly when a x (b y c) is. */
  lemma {:induction false} RotationKeepsOrder(x: int, y: int, a: Tree, b: Tree, c: Tree, h1: nat, h2: nat, h3: nat, h4: nat)
    ensures Bst(Node(y, h1, Node(x, h2, a, b), c)) <==> Bst(Node(x, h3, a, Node(y, h4, b, c)))
  {
    var lhs := Node(y, h1, Node(x, h2, a, b), c);
    var rhs := Node(x, h3, a, Node(y, h4, b, c));
    if Bst(lhs) {
      assert x in Keys(lhs.left);
      assert forall z :: z in Keys(c) ==> x < z;
      assert Bst(lhs.left) && KeysAbove(b, x) && KeysBelow(b, y);
      assert Bst(rhs.right);
      assert KeysAbove(rhs.right, x);
      assert Bst(rhs);
    }
    if Bst(rhs) {
      assert Bst(rhs.right) && KeysBelow(b, y);
      assert y in Keys(rhs.right);
      assert KeysBelow(a, x) && KeysAbove(rhs.right, x);
      assert x < y;
      assert KeysAbove(b, x) by {
        forall z | z in Keys(b) ensures x < z {
          assert z in Keys(rhs.right);
        }
      }
      assert KeysBelow(lhs.left, y) by {
        assert Keys(lhs.left) == Keys(a) + {x} + Keys(b);
        forall z | z in Keys(lhs.left) ensures z < y {
          if z in Keys(a) {
            assert z < x;
          } else if z in Keys(b) {
            assert z < y;
          } else {
            assert z == x;
          }
        }
      }
      assert Bst(lhs);
    }
  }

  /* ---------------------------------------------------------------------
     What one rebalancing step achieves
     --------------------------------------------------------------------- */

  /** A node that is two levels too heavy on the left, whose left child is
      itself left-heavy or level, becomes AVL after one right rotation. */
  lemma {:induction false} RotateRightRestores(t: Tree)
    requires t.Node? && t.left.Node?
    requires IsAvl(t.left) && IsAvl(t.right) && KeysBelow(t.left, t.key) && KeysAbove(t.right, t.key)
    requires Height(t.left.left) == Height(t.right) + 1
    requires Height(t.right) <= Height(t.left.right) <= Height(t.right) + 1
    ensures IsAvl(RotateRight(t))
    ensures Height(RotateRight(t)) == 2 + Height(t.left.right)
  {
    var r := RotateRight(t);
    assert Bst(t);
    assert r.right == UpdateHeight(Node(t.key, t.height, t.left.right, t.right));
    assert Height(r.right) == 1 + Height(t.left.right);
  }

  /** The mirror image of `RotateRightRestores`. */
  lemma {:induction false} RotateLeftRestores(t: Tree)
    requires t.Node? && t.right.Node?
    requires IsAvl(t.left) && IsAvl(t.right) && KeysBelow(t.left, t.key) && KeysAbove(t.right, t.key)
    requires Height(t.right.right) == Height(t.left) + 1
    requires Height(t.left) <= Height(t.right.left) <= Height(t.left) + 1
    ensures IsAvl(RotateLeft(t))
    ensures Height(RotateLeft(t)) == 2 + Height(t.right.left)
  {
    var r := RotateLeft(t);
    assert Bst(t);
    assert r.left == UpdateHeight(Node(t.key, t.height, t.left, t.right.left));
    assert Height(r.left) == 1 + Height(t.right.left);
  }

  /** A node that is two levels too heavy on the left, whose left child is
      right-heavy, becomes AVL after a left rotation of the child followed by
      a right rotation of the node. */
  lemma {:induction false} RotateLeftRightRestores(t: Tree)
    requires t.Node? && t.left.Node? && t.left.right.Node?
    requires IsAvl(t.left) && IsAvl(t.right) && KeysBelow(t.left, t.key) && KeysAbove(t.right, t.key)
    requires Height(t.left.left) == Height(t.right)
    requires Height(t.left.right) == Height(t.right) + 1
    ensures IsAvl(RotateRight(t.(left := RotateLeft(t.left))))
    ensures Height(RotateRight(t.(left := RotateLeft(t.left)))) == Height(t.right) + 2
  {
    var a, c := t.left.left, t.left.right;
    assert IsAvl(a) && IsAvl(c);
    assert -1 <= Height(c.left) - Height(t.right) <= 0;
    assert -1 <= Height(c.right) - Height(t.right) <= 0;
    var l := RotateLeft(t.left);
    var u := t.(left := l);
    assert Bst(u) by {
      assert Keys(l) == Keys(t.left);
    }
    assert l.left == UpdateHeight(Node(t.left.key, t.left.height, a, c.left));
    assert l.right == c.right;
    assert Balanced(l.left) && Height(l.left) == Height(t.right) + 1;
    var r := RotateRight(u);
    assert r.right == UpdateHeight(Node(u.key, u.height, c.right, t.right));
    assert r.left == l.left;
    assert Balanced(r.right) && Height(r.right) == Height(t.right) + 1;
  }

  /** The mirror image of `RotateLeftRightRestores`. */
  lemma {:induction false} RotateRightLeftRestores(t: Tree)
    requires t.Node? && t.right.Node? && t.right.left.Node?
    requires IsAvl(t.left) && IsAvl(t.right) && KeysBelow(t.left, t.key) && KeysAbove(t.right, t.key)
    requires Height(t.right.right) == Height(t.left)
    requires Height(t.right.left) == Height(t.left) + 1
    ensures IsAvl(RotateLeft(t.(right := RotateRight(t.right))))
    ensures Height(RotateLeft(t.(right := RotateRight(t.right)))) == Height(t.left) + 2
  {
    var a, c := t.right.right, t.right.left;
    assert IsAvl(a) && IsAvl(c);
    assert -1 <= Height(c.left) - Height(t.left) <= 0;
    assert -1 <= Height(c.right) - Height(t.left) <= 0;
    var rr := RotateRight(t.right);
    var u := t.(right := rr);
    assert Bst(u) by {
      assert Keys(rr) == Keys(t.right);
    }
    assert rr.right == UpdateHeight(Node(t.right.key, t.right.height, c.right, a));
    assert rr.left == c.left;
    assert Balanced(rr.right) && Height(rr.right) == Height(t.left) + 1;
    var r := RotateLeft(u);
    assert r.left == UpdateHeight(Node(u.key, u.height, t.left, c.left));
    assert r.right == rr.right;
    assert Balanced(r.left) && Height(r.left) == Height(t.left) + 1;
  }

  /* ---------------------------------------------------------------------
     Insertion (inserir, _inserir_recursivo)
     --------------------------------------------------------------------- */

  /** After inserting `k` made a subtree one level taller, the side `k` went
      to is the taller one, or the subtree is the new leaf `k` itself. */
  predicate GrewToward(t: Tree, k: int) {
    && t.Node?
    && (k < t.key ==> Height(t.left) == Height(t.right) + 1)
    && (k > t.key ==> Height(t.right) == Height(t.left) + 1)
    && (k == t.key ==> t.left.Nil? && t.right.Nil?)
  }

  /** `t2` is a correct outcome of inserting `k` into `t`: an AVL tree holding
      one key more, at most one level taller, and taller only on k's side. */
  predicate InsertedInto(t: Tree, k: int, t2: Tree) {
    && IsAvl(t2)
    && Keys(t2) == Keys(t) + {k}
    && (Height(t2) == Height(t) || (Height(t2) == Height(t) + 1 && GrewToward(t2, k)))
  }

  /** The double rotations insertion may choose find the grandchild they
      pivot on (`_rotacao_esquerda` and `_rotacao_direita` dereference the
      pivot's child without a check). */
  predicate InsertRotationsDefined(n: Tree, k: int) {
    && n.Node?
    && (BalanceFactor(n) > 1 && n.left.Node? && k > n.left.key ==> n.left.right.Node?)
    && (BalanceFactor(n) < -1 && n.right.Node? && k < n.right.key ==> n.right.left.Node?)
  }

  /** One unwinding step of insertion: refresh the height, then pick the
      LL, RR, LR or RL rotation by comparing `k` with the heavy child's key. */
  function RebalanceInsert(n: Tree, k: int): Tree
    requires InsertRotationsDefined(n, k)
  {
    var node := UpdateHeight(n);
    var balance := BalanceFactor(node);
    if balance > 1 && k < node.left.key then RotateRight(node)
    else if balance < -1 && k > node.right.key then RotateLeft(node)
    else if balance > 1 && k > node.left.key then RotateRight(node.(left := RotateLeft(node.left)))
    else if balance < -1 && k < node.right.key then RotateLeft(node.(right := RotateRight(node.right)))
    else node
  }

  /** Inserts `k`, failing with DuplicateKey exactly when it is present. */
  function Insert(t: Tree, k: int): (r: Result<Tree, AvlError>)
    requires IsAvl(t)
    ensures r.Failure? <==> k in Keys(t)
    ensures r.Success? ==> InsertedInto(t, k, r.value)
  {
    match t
    case Nil => Success(Node(k, 1, Nil, Nil))
    case Node(key, h, l, rt) =>
      if k < key then
        match Insert(l, k)
        case Failure(e) => Failure(e)
        case Success(l2) =>
          InsertLeftRebalances(t, k, l2);
          Success(RebalanceInsert(Node(key, h, l2, rt), k))
      else if k > key then
        match Insert(rt, k)
        case Failure(e) => Failure(e)
        case Success(r2) =>
          InsertRightRebalances(t, k, r2);
          Success(RebalanceInsert(Node(key, h, l, r2), k))
      else
        Failure(DuplicateKey)
  }

  /** Unwinding after an insertion into the left subtree restores the AVL
      invariant at the node, with LL or LR as the only rotations needed. */
  lemma {:induction false} InsertLeftRebalances(t: Tree, k: int, l2: Tree)
    requires t.Node? && IsAvl(t) && k < t.key
    requires InsertedInto(t.left, k, l2)
    ensures InsertRotationsDefined(Node(t.key, t.height, l2, t.right), k)
    ensures InsertedInto(t, k, RebalanceInsert(Node(t.key, t.height, l2, t.right), k))
  {
    var n := Node(t.key, t.height, l2, t.right);
    var u := UpdateHeight(n);
    assert KeysBelow(l2, t.key);
    if BalanceFactor(n) > 1 {
      assert Height(l2) == Height(t.left) + 1 == Height(t.right) + 2;
      if k < l2.key {
        RotateRightRestores(u);
      } else {
        assert k > l2.key;
        RotateLeftRightRestores(u);
      }
    } else {
      assert BalanceFactor(n) >= -1;
      assert IsAvl(u);
    }
  }

  /** The mirror image of `InsertLeftRebalances` (RR or RL). */
  lemma {:induction false} InsertRightRebalances(t: Tree, k: int, r2: Tree)
    requires t.Node? && IsAvl(t) && k > t.key
    requires InsertedInto(t.right, k, r2)
    ensures InsertRotationsDefined(Node(t.key, t.height, t.left, r2), k)
    ensures InsertedInto(t, k, RebalanceInsert(Node(t.key, t.height, t.left, r2), k))
  {
    var n := Node(t.key, t.height, t.left, r2);
    var u := UpdateHeight(n);
    assert KeysAbove(r2, t.key);
    if BalanceFactor(n) < -1 {
      assert Height(r2) == Height(t.right) + 1 == Height(t.left) + 2;
      if k > r2.key {
        RotateLeftRestores(u);
      } else {
        assert k < r2.key;
        RotateRightLeftRestores(u);
      }
    } else {
      assert BalanceFactor(n) <= 1;
      assert IsAvl(u);
    }
  }

  /* ---------------------------------------------------------------------
     Deletion (deletar, _deletar_recursivo)
     --------------------------------------------------------------------- */

  /** One unwinding step of deletion: refresh the height, then pick the
      rotation from the heavy child's own balance factor. */
  function RebalanceDelete(n: Tree): Tree
    requires n.Node?
  {
    var node := UpdateHeight(n);
    var balance := BalanceFactor(node);
    if balance > 1 && BalanceFactor(node.left) >= 0 then RotateRight(node)
    else if balance > 1 && BalanceFactor(node.left) < 0 then RotateRight(node.(left := RotateLeft(node.left)))
    else if balance < -1 && BalanceFactor(node.right) <= 0 then RotateLeft(node)
    else if balance < -1 && BalanceFactor(node.right) > 0 then RotateLeft(node.(right := RotateRight(node.right)))
    else node
  }

  /** A node over two AVL subtrees whose heights differ by at most two is
      AVL after one deletion rebalancing step; it loses at most one level
      against the unrotated node, and is left alone if already balanced. */
  lemma {:induction false} RebalanceDeleteRestores(n: Tree)
    requires n.Node? && IsAvl(n.left) && IsAvl(n.right)
    requires KeysBelow(n.left, n.key) && KeysAbove(n.right, n.key)
    requires -2 <= BalanceFactor(n) <= 2
    ensures IsAvl(RebalanceDelete(n)) && Keys(RebalanceDelete(n)) == Keys(n)
    ensures BinaryTree.Max(Height(n.left), Height(n.right)) <= Height(RebalanceDelete(n)) <= 1 + BinaryTree.Max(Height(n.left), Height(n.right))
    ensures -1 <= BalanceFactor(n) <= 1 ==> RebalanceDelete(n) == UpdateHeight(n)
  {
    if BalanceFactor(n) > 1 {
      RebalanceDeleteLeftHeavy(n);
    } else if BalanceFactor(n) < -1 {
      RebalanceDeleteRightHeavy(n);
    } else {
      assert IsAvl(UpdateHeight(n));
    }
  }

  lemma {:induction false} RebalanceDeleteLeftHeavy(n: Tree)
    requires n.Node? && IsAvl(n.left) && IsAvl(n.right)
    requires KeysBelow(n.left, n.key) && KeysAbove(n.right, n.key)
    requires BalanceFactor(n) == 2
    ensures IsAvl(RebalanceDelete(n)) && Keys(RebalanceDelete(n)) == Keys(n)
    ensures Height(n.left) <= Height(RebalanceDelete(n)) <= 1 + Height(n.left)
  {
    var u := UpdateHeight(n);
    if BalanceFactor(n.left) >= 0 {
      RotateRightRestores(u);
    } else {
      RotateLeftRightRestores(u);
    }
  }

  lemma {:induction false} RebalanceDeleteRightHeavy(n: Tree)
    requires n.Node? && IsAvl(n.left) && IsAvl(n.right)
    requires KeysBelow(n.left, n.key) && KeysAbove(n.right, n.key)
    requires BalanceFactor(n) == -2
    ensures IsAvl(RebalanceDelete(n)) && Keys(RebalanceDelete(n)) == Keys(n)
    ensures Height(n.right) <= Height(RebalanceDelete(n)) <= 1 + Height(n.right)
  {
    var u := UpdateHeight(n);
    if BalanceFactor(n.right) <= 0 {
      RotateLeftRestores(u);
    } else {
      RotateRightLeftRestores(u);
    }
  }

  /** `t2` is a correct outcome of deleting `k` from `t`: an AVL tree
      without `k` and otherwise the same keys, at most one level lower. */
  predicate DeletedFrom(t: Tree, k: int, t2: Tree) {
    && IsAvl(t2)
    && Keys(t2) == Keys(t) - {k}
    && Height(t) - 1 <= Height(t2) <= Height(t)
  }

  /** Deletes `k`; an absent key leaves the tree exactly as it was. */
  function Delete(t: Tree, k: int): (r: Tree)
    requires IsAvl(t)
    ensures DeletedFrom(t, k, r)
    ensures k !in Keys(t) ==> r == t
  {
    match t
    case Nil => Nil
    case Node(key, h, l, rt) =>
      if k < key then
        var l2 := Delete(l, k);
        DeleteLeftRebalances(t, k, l2);
        RebalanceDelete(Node(key, h, l2, rt))
      else if k > key then
        var r2 := Delete(rt, k);
        DeleteRightRebalances(t, k, r2);
        RebalanceDelete(Node(key, h, l, r2))
      else if l.Nil? then
        rt
      else if rt.Nil? then
        l
      else
        var m := MinValueNode(rt).key;
        var r2 := Delete(rt, m);
        DeleteSuccessorRebalances(t, m, r2);
        RebalanceDelete(Node(m, h, l, r2))
  }

  /** Unwinding after a deletion in the left subtree. */
  lemma {:induction false} DeleteLeftRebalances(t: Tree, k: int, l2: Tree)
    requires t.Node? && IsAvl(t) && k < t.key
    requires DeletedFrom(t.left, k, l2)
    requires k !in Keys(t.left) ==> l2 == t.left
    ensures DeletedFrom(t, k, RebalanceDelete(Node(t.key, t.height, l2, t.right)))
    ensures k !in Keys(t) ==> RebalanceDelete(Node(t.key, t.height, l2, t.right)) == t
  {
    var n := Node(t.key, t.height, l2, t.right);
    assert KeysBelow(l2, t.key);
    RebalanceDeleteRestores(n);
    assert k !in Keys(t.right);
    RemoveFromChild(Keys(t.left), Keys(l2), t.key, Keys(t.right), k);
  }

  /** Removing `k` from one side of a node that holds `k` nowhere else. */
  lemma RemoveFromChild(a: set<int>, a2: set<int>, x: int, b: set<int>, k: int)
    requires a2 == a - {k} && k != x && k !in b
    ensures a2 + {x} + b == (a + {x} + b) - {k}
    ensures b + {x} + a2 == (b + {x} + a) - {k}
  {
  }

  /** Unwinding after a deletion in the right subtree. */
  lemma {:induction false} DeleteRightRebalances(t: Tree, k: int, r2: Tree)
    requires t.Node? && IsAvl(t) && k > t.key
    requires DeletedFrom(t.right, k, r2)
    requires k !in Keys(t.right) ==> r2 == t.right
    ensures DeletedFrom(t, k, RebalanceDelete(Node(t.key, t.height, t.left, r2)))
    ensures k !in Keys(t) ==> RebalanceDelete(Node(t.key, t.height, t.left, r2)) == t
  {
    var n := Node(t.key, t.height, t.left, r2);
    assert KeysAbove(r2, t.key);
    RebalanceDeleteRestores(n);
    assert k !in Keys(t.left);
    RemoveFromChild(Keys(t.right), Keys(r2), t.key, Keys(t.left), k);
  }

  /** The two-children case: the in-order successor `m` (the minimum of the
      right subtree) takes the deleted key's place and is removed below. */
  lemma {:induction false} DeleteSuccessorRebalances(t: Tree, m: int, r2: Tree)
    requires t.Node? && IsAvl(t) && t.left.Node? && t.right.Node?
    requires m == MinValueNode(t.right).key
    requires DeletedFrom(t.right, m, r2)
    ensures DeletedFrom(t, t.key, RebalanceDelete(Node(m, t.height, t.left, r2)))
  {
    var n := Node(m, t.height, t.left, r2);
    assert m in Keys(t.right) && t.key < m;
    assert KeysBelow(t.left, m);
    assert KeysAbove(r2, m);
    RebalanceDeleteRestores(n);
    assert t.key !in Keys(t.left) && t.key !in Keys(t.right);
  }

  /* ---------------------------------------------------------------------
     Range query (encontrar_nos_intervalo)
     --------------------------------------------------------------------- */

  predicate StrictlyIncreasing(s: seq<int>) {
    forall i, j :: 0 <= i < j < |s| ==> s[i] < s[j]
  }

  /** Reference: the elements of `s` inside [lo, hi], in their order in `s`. */
  function Filter(s: seq<int>, lo: int, hi: int): seq<int> {
    if s == [] then []
    else (if lo <= s[0] <= hi then [s[0]] else []) + Filter(s[1..], lo, hi)
  }

  /** Pruned in-order walk: go left only if the key exceeds `lo`, keep the key
      if it lies in [lo, hi], go right only if the key is below `hi`. */
  function RangeQuery(t: Tree, lo: int, hi: int): (r: seq<int>)
    ensures forall i :: 0 <= i < |r| ==> r[i] in Keys(t) && lo <= r[i] <= hi
    ensures lo > hi ==> r == []
  {
    match t
    case Nil => []
    case Node(k, _, l, rt) =>
      (if k > lo then RangeQuery(l, lo, hi) else [])
      + (if lo <= k <= hi then [k] else [])
      + (if k < hi then RangeQuery(rt, lo, hi) else [])
  }

  lemma {:induction false} InOrderHasKeys(t: Tree)
    ensures forall x :: x in InOrder(t) <==> x in Keys(t)
  {
    match t
    case Nil =>
    case Node(_, _, l, r) =>
      InOrderHasKeys(l);
      InOrderHasKeys(r);
  }

  lemma {:induction false} InOrderOfBstIncreases(t: Tree)
    requires Bst(t)
    ensures StrictlyIncreasing(InOrder(t))
  {
    match t
    case Nil =>
    case Node(k, _, l, r) =>
      InOrderOfBstIncreases(l);
      InOrderOfBstIncreases(r);
      InOrderHasKeys(l);
      InOrderHasKeys(r);
      var s := InOrder(t);
      var a, b := InOrder(l), InOrder(r);
      assert s == a + [k] + b;
      forall i, j | 0 <= i < j < |s| ensures s[i] < s[j] {
        if j < |a| {
        } else if i < |a| {
          assert s[i] in Keys(l);
          if j > |a| { assert s[j] == b[j - |a| - 1] && s[j] in Keys(r); }
        } else if i == |a| {
          assert s[j] == b[j - |a| - 1] && s[j] in Keys(r);
        } else {
          assert s[i] == b[i - |a| - 1] && s[j] == b[j - |a| - 1];
        }
      }
  }

  lemma {:induction false} FilterAppend(a: seq<int>, b: seq<int>, lo: int, hi: int)
    ensures Filter(a + b, lo, hi) == Filter(a, lo, hi) + Filter(b, lo, hi)
  {
    if a == [] {
      assert a + b == b;
    } else {
      assert (a + b)[1..] == a[1..] + b;
      FilterAppend(a[1..], b, lo, hi);
    }
  }

  lemma {:induction false} FilterMembers(s: seq<int>, lo: int, hi: int)
    ensures forall x :: x in Filter(s, lo, hi) <==> x in s && lo <= x <= hi
  {
    if s != [] {
      FilterMembers(s[1..], lo, hi);
      assert forall x :: x in s <==> x == s[0] || x in s[1..];
    }
  }

  lemma {:induction false} FilterKeepsIncreasing(s: seq<int>, lo: int, hi: int)
    requires StrictlyIncreasing(s)
    ensures StrictlyIncreasing(Filter(s, lo, hi))
  {
    if s != [] {
      FilterKeepsIncreasing(s[1..], lo, hi);
      FilterMembers(s[1..], lo, hi);
      var f := Filter(s[1..], lo, hi);
      forall x | x in f ensures s[0] < x {
        var j :| 0 <= j < |s[1..]| && s[1..][j] == x;
        assert s[j + 1] == x;
      }
      var g := Filter(s, lo, hi);
      if lo <= s[0] <= hi {
        assert g == [s[0]] + f;
        forall i, j | 0 <= i < j < |g| ensures g[i] < g[j] {
          if i == 0 {
            assert g[j] == f[j - 1] && g[j] in f;
          } else {
            assert g[i] == f[i - 1] && g[j] == f[j - 1];
          }
        }
      }
    }
  }

  /** On a search tree the pruned walk returns exactly the keys in [lo, hi],
      in ascending order. */
  lemma {:induction false} RangeQueryCorrect(t: Tree, lo: int, hi: int)
    requires Bst(t)
    ensures forall x :: x in RangeQuery(t, lo, hi) <==> x in Keys(t) && lo <= x <= hi
    ensures StrictlyIncreasing(RangeQuery(t, lo, hi))
  {
    RangeQueryIsFilteredInOrder(t, lo, hi);
    InOrderOfBstIncreases(t);
    FilterKeepsIncreasing(InOrder(t), lo, hi);
    FilterMembers(InOrder(t), lo, hi);
    InOrderHasKeys(t);
  }

  /** On a search tree the pruning never skips a key in range: the walk
      agrees with filtering the full in-order sequence. */
  lemma {:induction false} RangeQueryIsFilteredInOrder(t: Tree, lo: int, hi: int)
    requires Bst(t)
    ensures RangeQuery(t, lo, hi) == Filter(InOrder(t), lo, hi)
  {
    match t
    case Nil =>
    case Node(k, _, l, r) =>
      var fl, fr := Filter(InOrder(l), lo, hi), Filter(InOrder(r), lo, hi);
      var fk := if lo <= k <= hi then [k] else [];
      FilterAppend(InOrder(l) + [k], InOrder(r), lo, hi);
      FilterAppend(InOrder(l), [k], lo, hi);
      assert Filter([k], lo, hi) == fk;
      assert Filter(InOrder(t), lo, hi) == fl + fk + fr;
      var ql := if k > lo then RangeQuery(l, lo, hi) else [];
      var qr := if k < hi then RangeQuery(r, lo, hi) else [];
      assert RangeQuery(t, lo, hi) == ql + fk + qr;
      if k > lo {
        RangeQueryIsFilteredInOrder(l, lo, hi);
      } else {
        KeysOutOfRange(l, lo, hi);
      }
      if k < hi {
        RangeQueryIsFilteredInOrder(r, lo, hi);
      } else {
        KeysOutOfRange(r, lo, hi);
      }
  }

  lemma KeysOutOfRange(t: Tree, lo: int, hi: int)
    requires forall x :: x in Keys(t) ==> x < lo || x > hi
    ensures Filter(InOrder(t), lo, hi) == []
  {
    InOrderHasKeys(t);
    var s := InOrder(t);
    forall i | 0 <= i < |s| ensures s[i] < lo || s[i] > hi {
      assert s[i] in s;
    }
    FilterOutOfRange(s, lo, hi);
  }

  lemma {:induction false} FilterOutOfRange(s: seq<int>, lo: int, hi: int)
    requires forall i :: 0 <= i < |s| ==> s[i] < lo || s[i] > hi
    ensures Filter(s, lo, hi) == []
  {
    if s != [] {
      FilterOutOfRange(s[1..], lo, hi);
    }
  }

  /* ---------------------------------------------------------------------
     Depth lookup (obter_profundidade_no)
     --------------------------------------------------------------------- */

  lemma {:induction false} AtDepthHasKey(t: Tree, k: int, d: nat)
    requires AtDepth(t, k, d)
    ensures k in Keys(t)
  {
    if d > 0 {
      if AtDepth(t.left, k, d - 1) {
        AtDepthHasKey(t.left, k, d - 1);
      } else {
        AtDepthHasKey(t.right, k, d - 1);
      }
    }
  }

  /** In a search tree a key sits at one depth only. */
  lemma {:induction false} AtDepthUnique(t: Tree, k: int, d1: nat, d2: nat)
    requires Bst(t) && AtDepth(t, k, d1) && AtDepth(t, k, d2)
    ensures d1 == d2
  {
    if d1 > 0 && d2 > 0 {
      if AtDepth(t.left, k, d1 - 1) {
        AtDepthHasKey(t.left, k, d1 - 1);
        if AtDepth(t.right, k, d2 - 1) {
          AtDepthHasKey(t.right, k, d2 - 1);
        } else {
          AtDepthUnique(t.left, k, d1 - 1, d2 - 1);
        }
      } else {
        AtDepthHasKey(t.right, k, d1 - 1);
        if AtDepth(t.left, k, d2 - 1) {
          AtDepthHasKey(t.left, k, d2 - 1);
        } else {
          AtDepthUnique(t.right, k, d1 - 1, d2 - 1);
        }
      }
    } else if d1 > 0 {
      if AtDepth(t.left, k, d1 - 1) {
        AtDepthHasKey(t.left, k, d1 - 1);
      } else {
        AtDepthHasKey(t.right, k, d1 - 1);
      }
    } else if d2 > 0 {
      if AtDepth(t.left, k, d2 - 1) {
        AtDepthHasKey(t.left, k, d2 - 1);
      } else {
        AtDepthHasKey(t.right, k, d2 - 1);
      }
    }
  }

  /** Iterative search from the root, counting the steps taken; -1 when the
      walk falls off the tree. */
  method Depth(t: Tree, k: int) returns (d: int)
    ensures d >= -1
    ensures d >= 0 ==> AtDepth(t, k, d)
    ensures Bst(t) ==> (d == -1 <==> k !in Keys(t))
  {
    var level: nat := 0;
    var current := t;
    while current.Node?
      invariant forall e: nat :: AtDepth(current, k, e) ==> AtDepth(t, k, level + e)
      invariant Bst(t) ==> Bst(current) && (k in Keys(t) <==> k in Keys(current))
      decreases current
    {
      if k == current.key {
        assert AtDepth(current, k, 0);
        return level;
      } else if k < current.key {
        assert forall e: nat :: AtDepth(current.left, k, e) ==> AtDepth(current, k, e + 1);
        current := current.left;
      } else {
        assert forall e: nat :: AtDepth(current.right, k, e) ==> AtDepth(current, k, e + 1);
        current := current.right;
      }
      level := level + 1;
    }
    return -1;
  }
}

=== FILE: binary_tree.dfy ===
/** The plain binary tree shared by the two search-tree exercises: a node
    holds an integer value and two possibly absent children. */
module BinaryTree {

  datatype Tree = Nil | Node(value: int, left: Tree, right: Tree)

  /** The larger of two integers; both trees' height functions use it. */
  function Max(a: int, b: int): int {
    if a >= b then a else b
  }

  function Values(t: Tree): set<int> {
    match t
    case Nil => {}
    case Node(v, l, r) => Values(l) + {v} + Values(r)
  }

  /** Every value of `t` is less than `v`. */
  predicate ValuesBelow(t: Tree, v: int) {
    forall x :: x in Values(t) ==> x < v
  }

  /** The values with their multiplicities. */
  function Elements(t: Tree): multiset<int> {
    match t
    case Nil => multiset{}
    case Node(v, l, r) => Elements(l) + multiset{v} + Elements(r)
  }

  /** Number of nodes. */
  function Size(t: Tree): nat {
    match t
    case Nil => 0
    case Node(_, l, r) => Size(l) + 1 + Size(r)
  }

  /** `AtDepth(t, v, d)`: a node holding `v` sits `d` edges below the root. */
  predicate AtDepth(t: Tree, v: int, d: nat) {
    match t
    case Nil => false
    case Node(x, l, r) =>
      if d == 0 then x == v else AtDepth(l, v, d - 1) || AtDepth(r, v, d - 1)
  }

  lemma {:induction false} AtDepthHasValue(t: Tree, v: int, d: nat)
    requires AtDepth(t, v, d)
    ensures v in Values(t)
  {
    if d > 0 {
      if AtDepth(t.left, v, d - 1) {
        AtDepthHasValue(t.left, v, d - 1);
      } else {
        AtDepthHasValue(t.right, v, d - 1);
      }
    }
  }

  lemma {:induction false} ElementsCountNodes(t: Tree)
    ensures |Elements(t)| == Size(t)
    ensures forall x :: x in Elements(t) <==> x in Values(t)
  {
    match t
    case Nil =>
    case Node(_, l, r) =>
      ElementsCountNodes(l);
      ElementsCountNodes(r);
  }
}

=== FILE: expr_tree.dfy ===
/** Model of the arithmetic expression exercise: expression trees, built
    from postfix tokens, printed back as fully parenthesised infix text,
    evaluated, and generated at random with a given number of operators. */
module ExprTree {
  import opened Wrappers
  import opened Tokens
  import opened ShuntingYard
  import opened Sequences

  /** A leaf holds an integer; an inner node holds an operator token. */
  datatype Expr = Leaf(n: int) | Op(op: Token, left: Expr, right: Expr)

  /** An operator met with fewer than two trees on the stack (`st.pop()` on
      an empty list), or nothing left to return at the end (`st[0]` of an
      empty list). */
  datatype BuildError = StackUnderflow | EmptyStack

  function OpCount(e: Expr): nat {
    match e
    case Leaf(_) => 0
    case Op(_, l, r) => OpCount(l) + 1 + OpCount(r)
  }

  function LeafCount(e: Expr): nat {
    match e
    case Leaf(_) => 1
    case Op(_, l, r) => LeafCount(l) + LeafCount(r)
  }

  /** Every inner node has two children, so there is one more leaf than
      there are operators. */
  lemma {:induction false} LeavesOutnumberOperators(e: Expr)
    ensures LeafCount(e) == OpCount(e) + 1
  {
    match e
    case Leaf(_) =>
    case Op(_, l, r) =>
      LeavesOutnumberOperators(l);
      LeavesOutnumberOperators(r);
  }

  /** Leaves are natural numbers and inner nodes hold one of the four
      operators: the trees the printer and the parser agree on. */
  predicate Printable(e: Expr) {
    match e
    case Leaf(n) => n >= 0
    case Op(o, l, r) => IsOperator(o) && Printable(l) && Printable(r)
  }

  /** Every inner node holds one of the four operators (leaves are
      unconstrained). */
  predicate OperatorsOnly(e: Expr) {
    match e
    case Leaf(_) => true
    case Op(o, l, r) => IsOperator(o) && OperatorsOnly(l) && OperatorsOnly(r)
  }

  /** The post-order traversal, as tokens. */
  function PostOrder(e: Expr): seq<Token> {
    match e
    case Leaf(n) => [Show(n)]
    case Op(o, l, r) => PostOrder(l) + PostOrder(r) + [o]
  }

  /* ---------------------------------------------------------------------
     build_tree_from_postfix
     --------------------------------------------------------------------- */

  /** Reads postfix tokens onto a stack of trees: a number becomes a leaf;
      any other token takes the top two trees as its right and left child. */
  function BuildStack(postfix: seq<Token>, st: seq<Expr>): Result<seq<Expr>, BuildError>
    decreases |postfix|
  {
    if postfix == [] then Success(st)
    else
      var t := postfix[0];
      if IsNumber(t) then BuildStack(postfix[1..], st + [Leaf(ParseNat(t))])
      else if |st| < 2 then Failure(StackUnderflow)
      else BuildStack(postfix[1..], st[..|st| - 2] + [Op(t, st[|st| - 2], st[|st| - 1])])
  }

  /** The tree at the bottom of the stack once all tokens are read.  It
      fails with `StackUnderflow` exactly when an operator finds fewer than
      two trees beneath it, and with `EmptyStack` exactly when nothing
      underflows but no tree is left. */
  function Build(postfix: seq<Token>): (r: Result<Expr, BuildError>)
    ensures r == Failure(StackUnderflow) <==> Underflows(postfix, 0)
    ensures r == Failure(EmptyStack) <==> !Underflows(postfix, 0) && StackSizeAfter(0, postfix) == 0
  {
    BuildStackUnderflow(postfix, []);
    match BuildStack(postfix, [])
    case Failure(err) => Failure(err)
    case Success(st) => if |st| == 0 then Failure(EmptyStack) else Success(st[0])
  }

  /** The post-orders of a stack of trees, bottom first. */
  function Flat(st: seq<Expr>): seq<Token> {
    if st == [] then [] else Flat(st[..|st| - 1]) + PostOrder(st[|st| - 1])
  }

  /** A number token in its shortest spelling (leading zeros dropped). */
  function Normalize(t: Token): Token {
    if IsNumber(t) then Show(ParseNat(t)) else t
  }

  function NormalizeAll(ts: seq<Token>): seq<Token> {
    if ts == [] then [] else [Normalize(ts[0])] + NormalizeAll(ts[1..])
  }

  lemma FlatPush(st: seq<Expr>, e: Expr)
    ensures Flat(st + [e]) == Flat(st) + PostOrder(e)
  {
    assert (st + [e])[..|st|] == st;
  }

  lemma {:induction false} FlatCombine(st: seq<Expr>, t: Token)
    requires |st| >= 2
    ensures Flat(st[..|st| - 2] + [Op(t, st[|st| - 2], st[|st| - 1])]) == Flat(st) + [t]
  {
    var rest, x, y := st[..|st| - 2], st[|st| - 2], st[|st| - 1];
    StackTopTwo(st);
    FlatPush(rest, Op(t, x, y));
    FlatPush(rest, x);
    FlatPush(rest + [x], y);
    AppendAssoc(Flat(rest), PostOrder(x) + PostOrder(y), [t]);
    AppendAssoc(Flat(rest), PostOrder(x), PostOrder(y));
  }

  lemma StackTopTwo(st: seq<Expr>)
    requires |st| >= 2
    ensures st == st[..|st| - 2] + [st[|st| - 2]] + [st[|st| - 1]]
  {
  }

  lemma FlatSingle(e: Expr)
    ensures Flat([e]) == PostOrder(e)
  {
    assert [e][..0] == [];
  }

  lemma NoTokensLeft(ts: seq<Token>)
    ensures [] + ts == ts
  {
  }

  /** Whatever the build leaves on its stack spells out, in post-order, the
      tokens it read, numbers in their shortest spelling. */
  lemma {:induction false} BuildStackSpellsInput(postfix: seq<Token>, st: seq<Expr>)
    requires BuildStack(postfix, st).Success?
    ensures Flat(BuildStack(postfix, st).value) == Flat(st) + NormalizeAll(postfix)
    decreases |postfix|
  {
    if postfix != [] {
      var t := postfix[0];
      if IsNumber(t) {
        var st2 := st + [Leaf(ParseNat(t))];
        BuildStackSpellsInput(postfix[1..], st2);
        FlatPush(st, Leaf(ParseNat(t)));
      } else {
        var st2 := st[..|st| - 2] + [Op(t, st[|st| - 2], st[|st| - 1])];
        BuildStackSpellsInput(postfix[1..], st2);
        FlatCombine(st, t);
      }
      AppendAssoc(Flat(st), [Normalize(t)], NormalizeAll(postfix[1..]));
    }
  }

  /** Well-formed postfix (the build leaves exactly one tree) yields a tree
      whose post-order is the input, numbers in their shortest spelling. */
  lemma {:induction false} BuildInvertsPostOrder(postfix: seq<Token>, e: Expr)
    requires BuildStack(postfix, []) == Success([e])
    ensures Build(postfix) == Success(e)
    ensures PostOrder(e) == NormalizeAll(postfix)
  {
    BuildStackSpellsInput(postfix, []);
    FlatSingle(e);
    NoTokensLeft(NormalizeAll(postfix));
  }

  /** Reading a tree's post-order pushes exactly that tree. */
  lemma {:induction false} BuildStackReadsPostOrder(e: Expr, rest: seq<Token>, st: seq<Expr>)
    requires Printable(e)
    ensures BuildStack(PostOrder(e) + rest, st) == BuildStack(rest, st + [e])
    decreases e
  {
    match e
    case Leaf(n) =>
      ParseShowNat(n);
      assert ([Show(n)] + rest)[1..] == rest;
    case Op(o, l, r) =>
      assert PostOrder(e) + rest == PostOrder(l) + (PostOrder(r) + ([o] + rest));
      BuildStackReadsPostOrder(l, PostOrder(r) + ([o] + rest), st);
      BuildStackReadsPostOrder(r, [o] + rest, st + [l]);
      OperatorIsNoNumber(o);
      var st2 := st + [l] + [r];
      assert st2[..|st2| - 2] == st && st2[|st2| - 2] == l && st2[|st2| - 1] == r;
      assert ([o] + rest)[1..] == rest;
  }

  /** Building from a tree's post-order gives the tree back. */
  lemma {:induction false} BuildPostOrder(e: Expr)
    requires Printable(e)
    ensures Build(PostOrder(e)) == Success(e)
  {
    assert PostOrder(e) + [] == PostOrder(e);
    BuildStackReadsPostOrder(e, [], []);
    assert [] + [e] == [e];
  }

  /** The number of trees on the stack after reading `p` onto `n` trees,
      with no check for underflow: a number adds one tree, any other token
      turns two into one. */
  function StackSizeAfter(n: int, p: seq<Token>): int
    decreases |p|
  {
    if p == [] then n
    else StackSizeAfter(if IsNumber(p[0]) then n + 1 else n - 1, p[1..])
  }

  /** Some non-number token of `p` is reached with fewer than two trees on
      the stack. */
  predicate Underflows(p: seq<Token>, n: int) {
    exists i :: 0 <= i < |p| && !IsNumber(p[i]) && StackSizeAfter(n, p[..i]) < 2
  }

  /** The build fails exactly when some operator finds fewer than two trees
      beneath it, and then with `StackUnderflow`; otherwise the stack holds
      as many trees as the count of numbers and operators predicts. */
  lemma {:induction false} BuildStackUnderflow(p: seq<Token>, st: seq<Expr>)
    ensures BuildStack(p, st).Failure? <==> Underflows(p, |st|)
    ensures BuildStack(p, st).Failure? ==> BuildStack(p, st).error == StackUnderflow
    ensures BuildStack(p, st).Success? ==> |BuildStack(p, st).value| == StackSizeAfter(|st|, p)
    decreases |p|
  {
    if p != [] {
      var t := p[0];
      if IsNumber(t) {
        BuildStackUnderflow(p[1..], st + [Leaf(ParseNat(t))]);
        UnderflowsStep(p, |st|);
      } else if |st| < 2 {
        assert p[..0] == [];
        assert !IsNumber(p[0]) && StackSizeAfter(|st|, p[..0]) < 2;
      } else {
        BuildStackUnderflow(p[1..], st[..|st| - 2] + [Op(t, st[|st| - 2], st[|st| - 1])]);
        UnderflowsStep(p, |st|);
      }
    }
  }

  /** Reading a token that does not underflow moves the question to the rest
      of the input. */
  lemma UnderflowsStep(p: seq<Token>, n: int)
    requires p != [] && (IsNumber(p[0]) || n >= 2)
    ensures Underflows(p, n) <==> Underflows(p[1..], if IsNumber(p[0]) then n + 1 else n - 1)
  {
    var m := if IsNumber(p[0]) then n + 1 else n - 1;
    forall i | 1 <= i <= |p|
      ensures StackSizeAfter(n, p[..i]) == StackSizeAfter(m, p[1..][..i - 1])
    {
      assert p[..i][0] == p[0] && p[..i][1..] == p[1..][..i - 1];
    }
    if Underflows(p, n) {
      var i :| 0 <= i < |p| && !IsNumber(p[i]) && StackSizeAfter(n, p[..i]) < 2;
      assert i > 0;
      assert p[1..][i - 1] == p[i];
    }
    if Underflows(p[1..], m) {
      var i :| 0 <= i < |p[1..]| && !IsNumber(p[1..][i]) && StackSizeAfter(m, p[1..][..i]) < 2;
      assert p[i + 1] == p[1..][i];
    }
  }

  /** `1 2 + +`: the second operator finds one tree only. */
  lemma SecondOperatorUnderflows()
    ensures Underflows(["1", "2", "+", "+"], 0)
  {
    var p: seq<Token> := ["1", "2", "+", "+"];
    assert "1"[0] == '1' && "2"[0] == '2' && "+"[0] == '+';
    assert IsNumber("1") && IsNumber("2") && !IsNumber("+");
    var q: seq<Token> := ["1", "2", "+"];
    assert p[..3] == q && q[1..] == ["2", "+"] && q[1..][1..] == ["+"] && q[1..][1..][1..] == [];
    assert StackSizeAfter(0, q) == StackSizeAfter(2, ["+"]) == 1;
  }

  /* ---------------------------------------------------------------------
     tree_to_infix
     --------------------------------------------------------------------- */

  /** Leaves as decimal numbers; each operator node in one pair of
      parentheses. */
  function TreeToInfix(e: Expr): string {
    match e
    case Leaf(n) => Show(n)
    case Op(o, l, r) => "(" + TreeToInfix(l) + o + TreeToInfix(r) + ")"
  }

  /** The tokens the printed text should scan to. */
  function InfixTokens(e: Expr): seq<Token> {
    match e
    case Leaf(n) => [Show(n)]
    case Op(o, l, r) => ["("] + InfixTokens(l) + [o] + InfixTokens(r) + [")"]
  }

  lemma ShowHasNoParens(n: int)
    ensures '(' !in Show(n) && ')' !in Show(n) && ' ' !in Show(n)
  {
    var d := if n < 0 then ShowNat(-n) else ShowNat(n);
    forall c | c in d ensures IsDigit(c) {
      var i :| 0 <= i < |d| && d[i] == c;
    }
  }

  /** How many times `c` occurs in `s`. */
  function Occurrences(s: string, c: char): nat {
    if s == [] then 0 else (if s[0] == c then 1 else 0) + Occurrences(s[1..], c)
  }

  lemma {:induction false} OccurrencesAppend(a: string, b: string, c: char)
    ensures Occurrences(a + b, c) == Occurrences(a, c) + Occurrences(b, c)
  {
    if a != [] {
      assert (a + b)[0] == a[0] && (a + b)[1..] == a[1..] + b;
      OccurrencesAppend(a[1..], b, c);
    } else {
      assert a + b == b;
    }
  }

  lemma {:induction false} OccurrencesOfAbsent(s: string, c: char)
    requires c !in s
    ensures Occurrences(s, c) == 0
  {
    if s != [] {
      OccurrencesOfAbsent(s[1..], c);
    }
  }

  /** Exactly one "(" and one ")" per operator node. */
  lemma {:induction false} InfixParensCountOperators(e: Expr)
    requires OperatorsOnly(e)
    ensures Occurrences(TreeToInfix(e), '(') == OpCount(e)
    ensures Occurrences(TreeToInfix(e), ')') == OpCount(e)
  {
    match e
    case Leaf(n) =>
      ShowHasNoParens(n);
      OccurrencesOfAbsent(Show(n), '(');
      OccurrencesOfAbsent(Show(n), ')');
    case Op(o, l, r) =>
      InfixParensCountOperators(l);
      InfixParensCountOperators(r);
      assert o == [o[0]];
      ParensInParenthesised(TreeToInfix(l), o, TreeToInfix(r), '(');
      ParensInParenthesised(TreeToInfix(l), o, TreeToInfix(r), ')');
  }

  /** Wrapping `a o b` in parentheses adds one of each parenthesis. */
  lemma ParensInParenthesised(a: string, o: string, b: string, c: char)
    requires c == '(' || c == ')'
    requires c !in o
    ensures Occurrences("(" + a + o + b + ")", c) == 1 + Occurrences(a, c) + Occurrences(b, c)
  {
    OccurrencesAppend("(" + a + o, b + ")", c);
    OccurrencesAppend("(" + a, o, c);
    OccurrencesAppend("(", a, c);
    OccurrencesAppend(b, ")", c);
    OccurrencesOfAbsent(o, c);
    assert "(" + a + o + b + ")" == ("(" + a + o) + (b + ")");
  }

  lemma {:induction false} InfixHasNoSpaces(e: Expr)
    requires Printable(e)
    ensures ' ' !in TreeToInfix(e)
  {
    match e
    case Leaf(n) =>
      ShowHasNoParens(n);
    case Op(o, l, r) =>
      InfixHasNoSpaces(l);
      InfixHasNoSpaces(r);
  }

  /** Scanning the printed text of a tree gives its infix tokens. */
  lemma {:induction false} ScanTreeToInfix(e: Expr)
    requires Printable(e)
    ensures Scan(TreeToInfix(e)) == InfixTokens(e)
  {
    match e
    case Leaf(n) =>
      ScanNumber(n);
    case Op(o, l, r) =>
      var a, b := TreeToInfix(l), TreeToInfix(r);
      ScanTreeToInfix(l);
      ScanTreeToInfix(r);
      ScanSymbol('(');
      ScanSymbol(')');
      ScanSymbol(o[0]);
      assert o == [o[0]];
      ScanAppend("(", a);
      ScanAppend("(" + a, o);
      ScanAppend("(" + a + o, b);
      ScanAppend("(" + a + o + b, ")");
  }

  /** Tokenising the printed text of a tree gives its infix tokens. */
  lemma {:induction false} TokenizeTreeToInfix(e: Expr)
    requires Printable(e)
    ensures Tokenize(TreeToInfix(e)) == InfixTokens(e)
  {
    InfixHasNoSpaces(e);
    ScanTreeToInfix(e);
  }

  /** The infix tokens of a tree convert to its post-order, leaving the
      stack as it was. */
  lemma {:induction false} RunInfixTokens(e: Expr, s: State)
    requires Printable(e)
    ensures Run(s, InfixTokens(e)) == State(s.out + PostOrder(e), s.stack)
    decreases e
  {
    match e
    case Leaf(n) =>
      StepCases(s, Show(n));
    case Op(o, l, r) =>
      var il, ir := InfixTokens(l), InfixTokens(r);
      var s1 := State(s.out, s.stack + ["("]);
      var s2 := State(s.out + PostOrder(l), s.stack + ["("]);
      var s3 := State(s2.out, s2.stack + [o]);
      var s4 := State(s2.out + PostOrder(r), s3.stack);
      calc {
        Run(s, InfixTokens(e));
        { InfixTokensOfOp(o, l, r); }
        Run(s, ["("] + (il + ([o] + (ir + [")"]))));
        { RunCons(s, "(", il + ([o] + (ir + [")"]))); StepCases(s, "("); }
        Run(s1, il + ([o] + (ir + [")"])));
        { RunAppend(s1, il, [o] + (ir + [")"])); RunInfixTokens(l, s1); }
        Run(s2, [o] + (ir + [")"]));
        { RunCons(s2, o, ir + [")"]); PushWithoutPop(s2, o); }
        Run(s3, ir + [")"]);
        { RunAppend(s3, ir, [")"]); RunInfixTokens(r, s3); }
        Run(s4, [")"]);
        { CloseAboveParen(s4, s.stack, o); }
        State(s.out + PostOrder(l) + PostOrder(r) + [o], s.stack);
        { AppendAssoc(s.out, PostOrder(l) + PostOrder(r), [o]); AppendAssoc(s.out, PostOrder(l), PostOrder(r)); }
        State(s.out + PostOrder(e), s.stack);
      }
  }

  lemma InfixTokensOfOp(o: Token, l: Expr, r: Expr)
    ensures InfixTokens(Op(o, l, r)) == ["("] + (InfixTokens(l) + ([o] + (InfixTokens(r) + [")"])))
  {
  }

  /** ")" read with `o` above a "(" outputs `o` and drops the "(". */
  lemma CloseAboveParen(s: State, st: seq<Token>, o: Token)
    requires IsOperator(o) && s.stack == st + ["("] + [o]
    ensures Run(s, [")"]) == State(s.out + [o], st)
  {
    assert [")"][0] == ")" && [")"][1..] == [];
    StepClose(s);
    assert o != "(";
    var inner := st + ["("];
    assert s.stack[..|s.stack| - 1] == inner;
    assert inner[..|inner| - 1] == st;
    assert ParenStop(s.stack) == |inner|;
    assert s.stack[|inner|..] == [o];
    assert s.stack[..|inner|] == inner;
  }

  /** The shunting-yard conversion of a tree's infix tokens is its
      post-order. */
  lemma {:induction false} InfixToPostfixOfTree(e: Expr)
    requires Printable(e)
    ensures InfixToPostfix(InfixTokens(e)) == PostOrder(e)
  {
    RunInfixTokens(e, State([], []));
  }

  /** Printing a tree, then tokenising, converting to postfix and building,
      gives the tree back. */
  lemma {:induction false} PrintParseRoundTrip(e: Expr)
    requires Printable(e)
    ensures InfixToPostfix(Tokenize(TreeToInfix(e))) == PostOrder(e)
    ensures Build(InfixToPostfix(Tokenize(TreeToInfix(e)))) == Success(e)
  {
    TokenizeTreeToInfix(e);
    InfixToPostfixOfTree(e);
    BuildPostOrder(e);
  }

  /* ---------------------------------------------------------------------
     eval_tree, for + - *
     --------------------------------------------------------------------- */

  predicate IsIntegerOperator(t: Token) {
    t == "+" || t == "-" || t == "*"
  }

  /** Inner nodes hold only + - or *. */
  predicate IntegerOps(e: Expr) {
    match e
    case Leaf(_) => true
    case Op(o, l, r) => IsIntegerOperator(o) && IntegerOps(l) && IntegerOps(r)
  }

  function Apply(o: Token, x: int, y: int): int
    requires IsIntegerOperator(o)
  {
    if o == "+" then x + y else if o == "-" then x - y else x * y
  }

  function Eval(e: Expr): int
    requires IntegerOps(e)
  {
    match e
    case Leaf(n) => n
    case Op(o, l, r) => Apply(o, Eval(l), Eval(r))
  }

  /** A stack machine over postfix tokens: numbers are pushed; an operator
      replaces the top two values by its result.  None on a stack underflow
      or a token it cannot apply. */
  function EvalPostfix(postfix: seq<Token>, st: seq<int>): Option<seq<int>>
    decreases |postfix|
  {
    if postfix == [] then Some(st)
    else
      var t := postfix[0];
      if IsNumber(t) then EvalPostfix(postfix[1..], st + [ParseNat(t)])
      else if IsIntegerOperator(t) && |st| >= 2 then
        EvalPostfix(postfix[1..], st[..|st| - 2] + [Apply(t, st[|st| - 2], st[|st| - 1])])
      else None
  }

  /** Evaluating a tree agrees with running its post-order on the stack
      machine. */
  lemma {:induction false} EvalMatchesPostfix(e: Expr, rest: seq<Token>, st: seq<int>)
    requires IntegerOps(e) && Printable(e)
    ensures EvalPostfix(PostOrder(e) + rest, st) == EvalPostfix(rest, st + [Eval(e)])
    decreases e
  {
    match e
    case Leaf(n) =>
      ParseShowNat(n);
      assert ([Show(n)] + rest)[1..] == rest;
    case Op(o, l, r) =>
      assert PostOrder(e) + rest == PostOrder(l) + (PostOrder(r) + ([o] + rest));
      EvalMatchesPostfix(l, PostOrder(r) + ([o] + rest), st);
      EvalMatchesPostfix(r, [o] + rest, st + [Eval(l)]);
      OperatorIsNoNumber(o);
      var st2 := st + [Eval(l)] + [Eval(r)];
      assert st2[..|st2| - 2] == st && st2[|st2| - 2] == Eval(l) && st2[|st2| - 1] == Eval(r);
      assert ([o] + rest)[1..] == rest;
  }

  /** The value of a tree is what the stack machine computes from its
      post-order. */
  lemma {:induction false} EvalIsPostfixValue(e: Expr)
    requires IntegerOps(e) && Printable(e)
    ensures EvalPostfix(PostOrder(e), []) == Some([Eval(e)])
  {
    assert PostOrder(e) + [] == PostOrder(e);
    EvalMatchesPostfix(e, [], []);
    assert [] + [Eval(e)] == [Eval(e)];
  }

  /* ---------------------------------------------------------------------
     gen_tree_with_k_ops
     --------------------------------------------------------------------- */

  /** `randint(lo, hi)` reading the raw draw `rng(i)`. */
  function RandInt(rng: nat -> nat, i: nat, lo: int, hi: int): (r: int)
    requires lo <= hi
    ensures lo <= r <= hi
  {
    lo + rng(i) % (hi - lo + 1)
  }

  const Choices: seq<Token> := ["+", "-", "*", "/"]

  /** Every leaf lies in [lo, hi]. */
  predicate LeavesWithin(e: Expr, lo: int, hi: int) {
    match e
    case Leaf(n) => lo <= n <= hi
    case Op(_, l, r) => LeavesWithin(l, lo, hi) && LeavesWithin(r, lo, hi)
  }

  /** A right operand 0 under "/" is redrawn from [1, 20]. */
  function AvoidZeroDivisor(op: Token, right: Expr, rng: nat -> nat, i: nat): (r: (Expr, nat))
    ensures op == "/" && right == Leaf(0) ==> r.0.Leaf? && 1 <= r.0.n <= 20 && r.1 == i + 1
    ensures !(op == "/" && right == Leaf(0)) ==> r == (right, i)
  {
    if op == "/" && right.Leaf? && right.n == 0 then (Leaf(RandInt(rng, i, 1, 20)), i + 1)
    else (right, i)
  }

  /** A random tree with `k` operators, reading raw draws from position `i`
      on, in the order `gen_tree_with_k_ops` draws them: the operator, the size of the left subtree,
      the left subtree, the right subtree.  Returns the tree and the next
      unread position. */
  function Gen(k: nat, rng: nat -> nat, i: nat): (r: (Expr, nat))
    ensures OpCount(r.0) == k
    ensures LeavesWithin(r.0, 1, 20) && Printable(r.0)
    ensures r.1 > i
    decreases k
  {
    if k == 0 then (Leaf(RandInt(rng, i, 1, 20)), i + 1)
    else
      var op := Choices[rng(i) % 4];
      var leftK := RandInt(rng, i + 1, 0, k - 1) as nat;
      var (left, j) := Gen(leftK, rng, i + 2);
      var (right, j2) := Gen(k - 1 - leftK, rng, j);
      var (right2, j3) := AvoidZeroDivisor(op, right, rng, j2);
      (Op(op, left, right2), j3)
  }

  /** A generated tree has k operators and k + 1 leaves, and its printed text
      parses back to it. */
  lemma {:induction false} GenShape(k: nat, rng: nat -> nat, i: nat)
    ensures OpCount(Gen(k, rng, i).0) == k && LeafCount(Gen(k, rng, i).0) == k + 1
    ensures Build(InfixToPostfix(Tokenize(TreeToInfix(Gen(k, rng, i).0)))) == Success(Gen(k, rng, i).0)
  {
    LeavesOutnumberOperators(Gen(k, rng, i).0);
    PrintParseRoundTrip(Gen(k, rng, i).0);
  }

  /* ---------------------------------------------------------------------
     The fixed expression of the exercise
     --------------------------------------------------------------------- */

  const Fixed: Expr :=
    Op("/", Op("*", Op("+", Leaf(7), Leaf(3)), Op("-", Leaf(5), Leaf(2))), Op("*", Leaf(10), Leaf(20)))

  /** The exercise's fixed text is the print of `Fixed`, so it converts to
      the post-order 7 3 + 5 2 - * 10 20 * / and builds `Fixed`. */
  lemma FixedExpression()
    ensures TreeToInfix(Fixed) == "(((7+3)*(5-2))/(10*20))"
    ensures InfixToPostfix(Tokenize("(((7+3)*(5-2))/(10*20))")) == ["7", "3", "+", "5", "2", "-", "*", "10", "20", "*", "/"]
    ensures Build(InfixToPostfix(Tokenize("(((7+3)*(5-2))/(10*20))"))) == Success(Fixed)
  {
    FixedText();
    FixedPostOrder();
    PrintParseRoundTrip(Fixed);
  }

  lemma SmallNumbers()
    ensures Show(2) == "2" && Show(3) == "3" && Show(5) == "5" && Show(7) == "7"
    ensures Show(10) == "10" && Show(20) == "20"
  {
    assert ShowNat(1) == "1" && ShowNat(2) == "2";
  }

  lemma FixedText()
    ensures TreeToInfix(Fixed) == "(((7+3)*(5-2))/(10*20))"
  {
    SmallNumbers();
  }

  lemma FixedPostOrder()
    ensures PostOrder(Fixed) == ["7", "3", "+", "5", "2", "-", "*", "10", "20", "*", "/"]
  {
    SmallNumbers();
  }
}

=== FILE: search_tree.dfy ===
/** Model of the strict binary search tree exercise (`BinarySearchTree` with
    insert, search, delete, height and depth).  Equal values are never stored
    twice: inserting a present value returns the tree untouched. */
module SearchTree {
  import opened Wrappers
  import opened BinaryTree

  predicate ValuesAbove(t: Tree, v: int) {
    forall x :: x in Values(t) ==> v < x
  }

  /** Strict order at every node: left < node < right. */
  predicate IsBst(t: Tree) {
    match t
    case Nil => true
    case Node(v, l, r) => IsBst(l) && IsBst(r) && ValuesBelow(l, v) && ValuesAbove(r, v)
  }

  /* ---------------------------------------------------------------------
     search
     --------------------------------------------------------------------- */

  /** Walks the search path; true when it meets `v`. */
  function Search(t: Tree, v: int): (found: bool)
    ensures found ==> v in Values(t)
  {
    match t
    case Nil => false
    case Node(x, l, r) =>
      if v == x then true
      else if v < x then Search(l, v)
      else Search(r, v)
  }

  /** On a search tree the walk finds every stored value. */
  lemma {:induction false} SearchFindsValues(t: Tree, v: int)
    requires IsBst(t)
    ensures Search(t, v) <==> v in Values(t)
  {
    match t
    case Nil =>
    case Node(x, l, r) =>
      if v < x {
        SearchFindsValues(l, v);
        assert v !in Values(r);
      } else if v > x {
        SearchFindsValues(r, v);
        assert v !in Values(l);
      }
  }

  /* ---------------------------------------------------------------------
     insert
     --------------------------------------------------------------------- */

  /** Adds `v` on its search path; a value met on the way is left alone. */
  function Insert(t: Tree, v: int): (r: Tree)
    ensures Values(r) == Values(t) + {v}
    ensures IsBst(t) ==> IsBst(r)
    ensures Search(t, v) ==> r == t
  {
    match t
    case Nil => Node(v, Nil, Nil)
    case Node(x, l, rt) =>
      if v < x then Node(x, Insert(l, v), rt)
      else if v > x then Node(x, l, Insert(rt, v))
      else t
  }

  /** Inserting a value the search tree already holds changes nothing. */
  lemma {:induction false} InsertPresentIsIdentity(t: Tree, v: int)
    requires IsBst(t) && v in Values(t)
    ensures Insert(t, v) == t
  {
    SearchFindsValues(t, v);
  }

  /* ---------------------------------------------------------------------
     delete (with _min_value_node)
     --------------------------------------------------------------------- */

  /** Follows left links from a non-empty tree to its leftmost node. */
  method MinValueNode(t: Tree) returns (m: Tree)
    requires t.Node?
    ensures m.Node? && m.left.Nil? && m.value in Values(t)
    ensures IsBst(t) ==> forall x :: x in Values(t) ==> m.value <= x
  {
    m := t;
    while m.left.Node?
      invariant m.Node?
      invariant Values(m) <= Values(t)
      invariant IsBst(t) ==> IsBst(m) && forall x :: x in Values(t) ==> x in Values(m) || m.value < x
      decreases m
    {
      m := m.left;
    }
  }

  /** Removes `v`.  A node with two children takes the minimum of its right
      subtree, which is then removed from that subtree. */
  method Delete(t: Tree, v: int) returns (r: Tree)
    ensures Values(r) <= Values(t)
    ensures v !in Values(t) ==> r == t
    ensures IsBst(t) ==> IsBst(r) && Values(r) == Values(t) - {v}
    decreases t
  {
    match t
    case Nil =>
      return t;
    case Node(x, l, rt) =>
      if v < x {
        var l2 := Delete(l, v);
        return Node(x, l2, rt);
      } else if v > x {
        var r2 := Delete(rt, v);
        return Node(x, l, r2);
      } else if l.Nil? && rt.Nil? {
        return Nil;
      } else if l.Nil? {
        return rt;
      } else if rt.Nil? {
        return l;
      } else {
        var successor := MinValueNode(rt);
        var r2 := Delete(rt, successor.value);
        r := Node(successor.value, l, r2);
        if IsBst(t) {
          assert v !in Values(l) && v !in Values(rt);
          assert ValuesAbove(r2, successor.value);
        }
      }
  }

  /* ---------------------------------------------------------------------
     height and depth
     --------------------------------------------------------------------- */

  /** Height in edges: -1 for the empty tree, 0 for a single node. */
  function Height(t: Tree): (h: int)
    ensures h >= -1 && (h == -1 <==> t.Nil?)
  {
    match t
    case Nil => -1
    case Node(_, l, r) => 1 + Max(Height(l), Height(r))
  }

  /** The height is the level of the deepest node: no node lies deeper, and
      a non-empty tree has a node exactly that deep. */
  lemma {:induction false} HeightIsDeepestLevel(t: Tree)
    ensures t.Nil? <==> Height(t) == -1
    ensures t.Node? ==> Height(t) >= 0
    ensures forall v, d: nat :: AtDepth(t, v, d) ==> d <= Height(t)
    ensures t.Node? ==> exists v :: v in Values(t) && AtDepth(t, v, Height(t) as nat)
  {
    match t
    case Nil =>
    case Node(x, l, r) =>
      HeightIsDeepestLevel(l);
      HeightIsDeepestLevel(r);
      forall v, d: nat | AtDepth(t, v, d) ensures d <= Height(t) {
        if d > 0 {
          assert AtDepth(l, v, d - 1) || AtDepth(r, v, d - 1);
        }
      }
      if l.Nil? && r.Nil? {
        assert x in Values(t) && AtDepth(t, x, 0);
      } else if Height(l) >= Height(r) {
        var w :| w in Values(l) && AtDepth(l, w, Height(l) as nat);
        assert w in Values(t) && AtDepth(t, w, Height(t) as nat);
      } else {
        var w :| w in Values(r) && AtDepth(r, w, Height(r) as nat);
        assert w in Values(t) && AtDepth(t, w, Height(t) as nat);
      }
  }

  /** Depth search carrying the current level `d`; None when `v` is absent
      from the search path. */
  function DepthFrom(t: Tree, v: int, d: nat): (r: Option<nat>)
    ensures r.Some? ==> r.value >= d && AtDepth(t, v, r.value - d)
  {
    match t
    case Nil => None
    case Node(x, l, rt) =>
      if x == v then Some(d)
      else if v < x then DepthFrom(l, v, d + 1)
      else DepthFrom(rt, v, d + 1)
  }

  /** Number of edges from the root to `v`, or None. */
  function Depth(t: Tree, v: int): (r: Option<nat>)
    ensures r.Some? ==> AtDepth(t, v, r.value)
  {
    DepthFrom(t, v, 0)
  }

  /** On a search tree the depth is found exactly for stored values, and is
      the one level at which `v` occurs. */
  lemma {:induction false} DepthFindsValues(t: Tree, v: int, d: nat)
    requires IsBst(t)
    ensures DepthFrom(t, v, d).Some? <==> v in Values(t)
    ensures forall e: nat :: AtDepth(t, v, e) ==> DepthFrom(t, v, d) == Some(d + e)
  {
    match t
    case Nil =>
    case Node(x, l, r) =>
      DepthFindsValues(l, v, d + 1);
      DepthFindsValues(r, v, d + 1);
      forall e: nat | AtDepth(t, v, e) ensures DepthFrom(t, v, d) == Some(d + e) {
        if e > 0 {
          if AtDepth(l, v, e - 1) {
            AtDepthHasValue(l, v, e - 1);
          } else {
            AtDepthHasValue(r, v, e - 1);
          }
        } else {
          assert x == v;
        }
      }
  }
}

=== FILE: sequences.dfy ===
/** Facts about sequences shared by the tokenizer, the conversion to
    postfix, the expression trees and the traversals. */
module Sequences {

  lemma AppendAssoc<T>(x: seq<T>, y: seq<T>, z: seq<T>)
    ensures x + (y + z) == (x + y) + z
  {
  }
}

=== FILE: shunting_yard.dfy ===
/** The shunting-yard conversion from infix tokens to postfix tokens.  The
    state is the output queue and the operator stack (its top at the end);
    each token is one step of a left fold, and at the end the stack is
    emptied onto the output from the top down. */
module ShuntingYard {
  import opened Tokens
  import opened Sequences

  /** `+ -` bind at level 1, `* /` at level 2. */
  function Prec(t: Token): nat
    requires IsOperator(t)
  {
    if t[0] == '+' || t[0] == '-' then 1 else 2
  }

  datatype State = State(out: seq<Token>, stack: seq<Token>)

  function Reverse(s: seq<Token>): (r: seq<Token>)
    ensures |r| == |s|
  {
    if s == [] then [] else [s[|s| - 1]] + Reverse(s[..|s| - 1])
  }

  /** Moves the top `|s.stack| - k` entries of the stack to the output, the
      topmost first. */
  function PopDownTo(s: State, k: nat): State
    requires k <= |s.stack|
  {
    State(s.out + Reverse(s.stack[k..]), s.stack[..k])
  }

  /** Where popping stops for an incoming operator of precedence `p`: every
      entry above is an operator binding at least as tightly, and the entry
      below is not. */
  function OperatorStop(st: seq<Token>, p: nat): (k: nat)
    ensures k <= |st|
    ensures forall i :: k <= i < |st| ==> IsOperator(st[i]) && Prec(st[i]) >= p
    ensures k == 0 || !IsOperator(st[k - 1]) || Prec(st[k - 1]) < p
    decreases |st|
  {
    if |st| > 0 && IsOperator(st[|st| - 1]) && Prec(st[|st| - 1]) >= p then OperatorStop(st[..|st| - 1], p)
    else |st|
  }

  /** Where popping stops for ")": every entry above differs from "(", and
      the entry below, if any, is "(". */
  function ParenStop(st: seq<Token>): (k: nat)
    ensures k <= |st|
    ensures forall i :: k <= i < |st| ==> st[i] != "("
    ensures k == 0 || st[k - 1] == "("
    decreases |st|
  {
    if |st| > 0 && st[|st| - 1] != "(" then ParenStop(st[..|st| - 1]) else |st|
  }

  /** Pops operators of precedence at least `p` to the output. */
  function PopOperators(s: State, p: nat): State {
    PopDownTo(s, OperatorStop(s.stack, p))
  }

  /** Pops entries to the output up to, and not including, the topmost "(". */
  function PopToParen(s: State): State {
    PopDownTo(s, ParenStop(s.stack))
  }

  /** One token: a number goes to the output; an operator first pops the
      operators that bind at least as tightly; "(" is pushed; ")" pops to the
      matching "(" and drops it.  Any other token is ignored. */
  function Step(s: State, t: Token): State {
    if IsNumber(t) then State(s.out + [t], s.stack)
    else if IsOperator(t) then
      var r := PopOperators(s, Prec(t));
      State(r.out, r.stack + [t])
    else if t == "(" then State(s.out, s.stack + ["("])
    else if t == ")" then
      var r := PopToParen(s);
      if |r.stack| > 0 && r.stack[|r.stack| - 1] == "(" then State(r.out, r.stack[..|r.stack| - 1])
      else r
    else s
  }

  function Run(s: State, ts: seq<Token>): State
    decreases |ts|
  {
    if ts == [] then s else Run(Step(s, ts[0]), ts[1..])
  }

  /** The output followed by the stack from the top down. */
  function Flush(s: State): seq<Token> {
    s.out + Reverse(s.stack)
  }

  function InfixToPostfix(ts: seq<Token>): seq<Token> {
    Flush(Run(State([], []), ts))
  }

  /** Running over two pieces is running over the first, then the second. */
  lemma {:induction false} RunAppend(s: State, a: seq<Token>, b: seq<Token>)
    ensures Run(s, a + b) == Run(Run(s, a), b)
    decreases |a|
  {
    if a == [] {
      assert a + b == b;
    } else {
      assert (a + b)[1..] == a[1..] + b;
      RunAppend(Step(s, a[0]), a[1..], b);
    }
  }

  /* ---------------------------------------------------------------------
     What the conversion keeps
     --------------------------------------------------------------------- */

  /** The number tokens of `ts`, in order. */
  function Numbers(ts: seq<Token>): seq<Token> {
    if ts == [] then [] else (if IsNumber(ts[0]) then [ts[0]] else []) + Numbers(ts[1..])
  }

  /** The operator tokens of `ts`, in order. */
  function Operators(ts: seq<Token>): seq<Token> {
    if ts == [] then [] else (if IsOperator(ts[0]) then [ts[0]] else []) + Operators(ts[1..])
  }

  /** How many "(" of `ts` are still open at its end: a ")" closes the
      innermost open one, and does nothing when none is open. */
  function Unclosed(ts: seq<Token>): nat {
    if ts == [] then 0
    else
      var u := Unclosed(ts[..|ts| - 1]);
      var t := ts[|ts| - 1];
      if t == "(" then u + 1
      else if t == ")" then (if u > 0 then u - 1 else 0)
      else u
  }

  lemma TailOfAppend(a: seq<Token>, b: seq<Token>)
    requires a != []
    ensures a + b != [] && (a + b)[0] == a[0] && (a + b)[1..] == a[1..] + b
  {
  }

  lemma {:induction false} NumbersAppend(a: seq<Token>, b: seq<Token>)
    ensures Numbers(a + b) == Numbers(a) + Numbers(b)
    decreases |a|
  {
    if a == [] {
      assert a + b == b;
    } else {
      TailOfAppend(a, b);
      NumbersAppend(a[1..], b);
      AppendAssoc(if IsNumber(a[0]) then [a[0]] else [], Numbers(a[1..]), Numbers(b));
    }
  }

  lemma {:induction false} OperatorsAppend(a: seq<Token>, b: seq<Token>)
    ensures Operators(a + b) == Operators(a) + Operators(b)
    decreases |a|
  {
    if a == [] {
      assert a + b == b;
    } else {
      TailOfAppend(a, b);
      OperatorsAppend(a[1..], b);
      AppendAssoc(if IsOperator(a[0]) then [a[0]] else [], Operators(a[1..]), Operators(b));
    }
  }

  /** A sequence with no number tokens. */
  predicate NoNumbers(ts: seq<Token>) {
    forall i :: 0 <= i < |ts| ==> !IsNumber(ts[i])
  }

  lemma {:induction false} NumbersOfNone(ts: seq<Token>)
    requires NoNumbers(ts)
    ensures Numbers(ts) == []
    decreases |ts|
  {
    if ts != [] {
      NumbersOfNone(ts[1..]);
    }
  }

  lemma {:induction false} ReverseIndex(s: seq<Token>)
    ensures forall i :: 0 <= i < |s| ==> Reverse(s)[i] == s[|s| - 1 - i]
    decreases |s|
  {
    if s != [] {
      ReverseIndex(s[..|s| - 1]);
    }
  }

  lemma {:induction false} ReverseMultiset(s: seq<Token>)
    ensures multiset(Reverse(s)) == multiset(s)
    decreases |s|
  {
    if s != [] {
      var init := s[..|s| - 1];
      ReverseMultiset(init);
      assert s == init + [s[|s| - 1]];
    }
  }

  lemma {:induction false} ReverseOperators(s: seq<Token>)
    ensures multiset(Operators(Reverse(s))) == multiset(Operators(s))
    decreases |s|
  {
    if s != [] {
      var init := s[..|s| - 1];
      ReverseOperators(init);
      assert s == init + [s[|s| - 1]];
      OperatorsAppend(init, [s[|s| - 1]]);
      OperatorsAppend([s[|s| - 1]], Reverse(init));
    }
  }

  lemma OperatorIsNoNumber(t: Token)
    requires IsOperator(t) || t == "(" || t == ")"
    ensures !IsNumber(t)
  {
    assert !IsDigit(t[0]);
  }

  /** Entries the stack may hold. */
  predicate StackEntries(st: seq<Token>) {
    forall i :: 0 <= i < |st| ==> IsOperator(st[i]) || st[i] == "("
  }

  /** Entries the output may hold while tokens are read. */
  predicate OutEntries(out: seq<Token>) {
    forall i :: 0 <= i < |out| ==> IsNumber(out[i]) || IsOperator(out[i])
  }

  lemma OutEntriesAppend(a: seq<Token>, b: seq<Token>)
    requires OutEntries(a) && OutEntries(b)
    ensures OutEntries(a + b)
  {
    forall i | 0 <= i < |a + b| ensures IsNumber((a + b)[i]) || IsOperator((a + b)[i]) {
      if i < |a| {
        assert (a + b)[i] == a[i];
      } else {
        assert (a + b)[i] == b[i - |a|];
      }
    }
  }

  /** The operators of `p` are those of the output and the stack together. */
  predicate KeepsOperators(s: State, p: seq<Token>) {
    multiset(Operators(s.out)) + multiset(Operators(s.stack)) == multiset(Operators(p))
  }

  /** After reading `p`: the output holds the numbers of `p` in order, output
      and stack together hold its operators, and the stack holds one "(" per
      parenthesis still open. */
  predicate Reads(s: State, p: seq<Token>) {
    && StackEntries(s.stack)
    && OutEntries(s.out)
    && Numbers(s.out) == Numbers(p)
    && KeepsOperators(s, p)
    && multiset(s.stack)["("] == Unclosed(p)
  }

  /** The moved top of a stack of operators and "(", read from the top down,
      holds no number. */
  lemma MovedHasNoNumbers(st: seq<Token>)
    requires StackEntries(st)
    ensures NoNumbers(Reverse(st))
    ensures Numbers(Reverse(st)) == []
  {
    ReverseIndex(st);
    forall i | 0 <= i < |st| ensures !IsNumber(Reverse(st)[i]) {
      OperatorIsNoNumber(st[|st| - 1 - i]);
    }
    NumbersOfNone(Reverse(st));
  }

  lemma PopKeepsEntries(s: State, k: nat)
    requires StackEntries(s.stack) && OutEntries(s.out)
    requires k <= |s.stack| && forall i :: k <= i < |s.stack| ==> IsOperator(s.stack[i])
    ensures StackEntries(PopDownTo(s, k).stack) && OutEntries(PopDownTo(s, k).out)
  {
    var moved := s.stack[k..];
    ReverseIndex(moved);
    assert OutEntries(Reverse(moved)) by {
      forall i | 0 <= i < |moved| ensures IsOperator(Reverse(moved)[i]) {
        assert Reverse(moved)[i] == s.stack[k + |moved| - 1 - i];
      }
    }
    OutEntriesAppend(s.out, Reverse(moved));
  }

  lemma PopKeepsNumbers(s: State, k: nat)
    requires StackEntries(s.stack)
    requires k <= |s.stack|
    ensures Numbers(PopDownTo(s, k).out) == Numbers(s.out)
  {
    var moved := s.stack[k..];
    assert StackEntries(moved) by {
      forall i | 0 <= i < |moved| ensures IsOperator(moved[i]) || moved[i] == "(" {
        assert moved[i] == s.stack[k + i];
      }
    }
    MovedHasNoNumbers(moved);
    NumbersAppend(s.out, Reverse(moved));
  }

  lemma PopKeepsOperators(s: State, k: nat, p: seq<Token>)
    requires k <= |s.stack| && KeepsOperators(s, p)
    ensures KeepsOperators(PopDownTo(s, k), p)
  {
    var moved := s.stack[k..];
    assert s.stack == s.stack[..k] + moved;
    ReverseOperators(moved);
    OperatorsAppend(s.out, Reverse(moved));
    OperatorsAppend(s.stack[..k], moved);
  }

  lemma PopKeepsParens(s: State, k: nat)
    requires k <= |s.stack| && forall i :: k <= i < |s.stack| ==> s.stack[i] != "("
    ensures multiset(PopDownTo(s, k).stack)["("] == multiset(s.stack)["("]
  {
    var moved := s.stack[k..];
    assert s.stack == s.stack[..k] + moved;
    assert "(" !in multiset(moved) by {
      forall i | 0 <= i < |moved| ensures moved[i] != "(" {
        assert moved[i] == s.stack[k + i];
      }
    }
  }

  /** What reading one more token adds to the reference counts. */
  lemma ReadOneMore(p: seq<Token>, t: Token)
    ensures Numbers(p + [t]) == Numbers(p) + (if IsNumber(t) then [t] else [])
    ensures multiset(Operators(p + [t])) == multiset(Operators(p)) + (if IsOperator(t) then multiset{t} else multiset{})
    ensures Unclosed(p + [t]) == if t == "(" then Unclosed(p) + 1
                                 else if t == ")" then (if Unclosed(p) > 0 then Unclosed(p) - 1 else 0)
                                 else Unclosed(p)
  {
    assert (p + [t])[..|p|] == p;
    NumbersAppend(p, [t]);
    OperatorsAppend(p, [t]);
  }

  /** Popping for ")" moves operators only. */
  lemma ParenStopAboveOperators(st: seq<Token>)
    requires StackEntries(st)
    ensures forall i :: ParenStop(st) <= i < |st| ==> IsOperator(st[i])
  {
    var k := ParenStop(st);
    forall i | k <= i < |st| ensures IsOperator(st[i]) {
      assert st[i] != "(";
    }
  }

  lemma StepKeepsEntries(s: State, t: Token)
    requires StackEntries(s.stack) && OutEntries(s.out)
    ensures StackEntries(Step(s, t).stack) && OutEntries(Step(s, t).out)
  {
    if IsNumber(t) {
      OutEntriesAppend(s.out, [t]);
    } else if IsOperator(t) {
      PopKeepsEntries(s, OperatorStop(s.stack, Prec(t)));
    } else if t == ")" {
      ParenStopAboveOperators(s.stack);
      PopKeepsEntries(s, ParenStop(s.stack));
    }
  }

  lemma StepKeepsNumbers(s: State, p: seq<Token>, t: Token)
    requires StackEntries(s.stack) && Numbers(s.out) == Numbers(p)
    ensures Numbers(Step(s, t).out) == Numbers(p + [t])
  {
    ReadOneMore(p, t);
    if IsNumber(t) {
      NumbersAppend(s.out, [t]);
    } else if IsOperator(t) {
      PopKeepsNumbers(s, OperatorStop(s.stack, Prec(t)));
    } else if t == ")" {
      PopKeepsNumbers(s, ParenStop(s.stack));
    }
  }

  /** The token kinds are disjoint. */
  lemma TokenKinds(t: Token)
    ensures IsNumber(t) ==> !IsOperator(t) && t != "(" && t != ")"
    ensures IsOperator(t) ==> t != "(" && t != ")"
  {
    if IsNumber(t) && (IsOperator(t) || t == "(" || t == ")") {
      OperatorIsNoNumber(t);
    }
  }

  /** The number, operator and "(" steps spelled out. */
  lemma StepCases(s: State, t: Token)
    ensures IsNumber(t) ==> Step(s, t) == State(s.out + [t], s.stack)
    ensures IsOperator(t) ==> Step(s, t) == State(PopOperators(s, Prec(t)).out, PopOperators(s, Prec(t)).stack + [t])
    ensures t == "(" ==> Step(s, t) == State(s.out, s.stack + ["("])
    ensures !IsNumber(t) && !IsOperator(t) && t != "(" && t != ")" ==> Step(s, t) == s
  {
    TokenKinds(t);
  }

  lemma StepKeepsOperators(s: State, p: seq<Token>, t: Token)
    requires KeepsOperators(s, p)
    ensures KeepsOperators(Step(s, t), p + [t])
  {
    if t == ")" {
      CloseKeepsOperators(s, p);
    } else if IsOperator(t) {
      OperatorKeepsOperators(s, p, t);
    } else {
      ReadOneMore(p, t);
      StepCases(s, t);
      TokenKinds(t);
      if IsNumber(t) {
        OperatorsAppend(s.out, [t]);
      } else if t == "(" {
        OperatorsAppend(s.stack, [t]);
      }
    }
  }

  lemma OperatorKeepsOperators(s: State, p: seq<Token>, t: Token)
    requires KeepsOperators(s, p) && IsOperator(t)
    ensures KeepsOperators(Step(s, t), p + [t])
  {
    ReadOneMore(p, t);
    StepCases(s, t);
    var k := OperatorStop(s.stack, Prec(t));
    PopKeepsOperators(s, k, p);
    OperatorsAppend(PopDownTo(s, k).stack, [t]);
  }

  lemma CloseKeepsOperators(s: State, p: seq<Token>)
    requires KeepsOperators(s, p)
    ensures KeepsOperators(Step(s, ")"), p + [")"])
  {
    ReadOneMore(p, ")");
    var k := ParenStop(s.stack);
    PopKeepsOperators(s, k, p);
    var r := PopDownTo(s, k);
    StepClose(s);
    if |r.stack| > 0 && r.stack[|r.stack| - 1] == "(" {
      DropParenKeepsOperators(r.stack);
    }
  }

  /** The ")" step spelled out. */
  lemma StepClose(s: State)
    ensures Step(s, ")") == (var r := PopToParen(s);
                             if |r.stack| > 0 && r.stack[|r.stack| - 1] == "(" then State(r.out, r.stack[..|r.stack| - 1]) else r)
  {
    OperatorIsNoNumber(")");
  }

  lemma DropParenKeepsOperators(st: seq<Token>)
    requires |st| > 0 && st[|st| - 1] == "("
    ensures Operators(st[..|st| - 1]) == Operators(st)
  {
    assert st == st[..|st| - 1] + ["("];
    OperatorsAppend(st[..|st| - 1], ["("]);
  }

  lemma StepKeepsParens(s: State, p: seq<Token>, t: Token)
    requires StackEntries(s.stack) && multiset(s.stack)["("] == Unclosed(p)
    ensures multiset(Step(s, t).stack)["("] == Unclosed(p + [t])
  {
    if t == ")" {
      CloseKeepsParens(s, p);
    } else if IsOperator(t) {
      OperatorKeepsParens(s, p, t);
    } else {
      ReadOneMore(p, t);
      StepCases(s, t);
      TokenKinds(t);
    }
  }

  lemma OperatorKeepsParens(s: State, p: seq<Token>, t: Token)
    requires StackEntries(s.stack) && multiset(s.stack)["("] == Unclosed(p) && IsOperator(t)
    ensures multiset(Step(s, t).stack)["("] == Unclosed(p + [t])
  {
    ReadOneMore(p, t);
    StepCases(s, t);
    TokenKinds(t);
    var k := OperatorStop(s.stack, Prec(t));
    assert forall i :: k <= i < |s.stack| ==> s.stack[i] != "(" by {
      forall i | k <= i < |s.stack| ensures s.stack[i] != "(" {
        TokenKinds(s.stack[i]);
      }
    }
    PopKeepsParens(s, k);
  }

  lemma CloseKeepsParens(s: State, p: seq<Token>)
    requires StackEntries(s.stack) && multiset(s.stack)["("] == Unclosed(p)
    ensures multiset(Step(s, ")").stack)["("] == Unclosed(p + [")"])
  {
    ReadOneMore(p, ")");
    var k := ParenStop(s.stack);
    PopKeepsParens(s, k);
    StepClose(s);
    var st := PopDownTo(s, k).stack;
    if |st| > 0 {
      DropParenCount(st);
    }
  }

  lemma DropParenCount(st: seq<Token>)
    requires |st| > 0 && st[|st| - 1] == "("
    ensures multiset(st[..|st| - 1])["("] + 1 == multiset(st)["("]
  {
    assert st == st[..|st| - 1] + ["("];
  }

  lemma StepKeepsTokens(s: State, p: seq<Token>, t: Token)
    requires Reads(s, p)
    ensures Reads(Step(s, t), p + [t])
  {
    StepKeepsEntries(s, t);
    StepKeepsNumbers(s, p, t);
    StepKeepsOperators(s, p, t);
    StepKeepsParens(s, p, t);
  }

  lemma {:induction false} RunKeepsTokens(s: State, p: seq<Token>, ts: seq<Token>)
    requires Reads(s, p)
    ensures Reads(Run(s, ts), p + ts)
    decreases |ts|
  {
    if ts == [] {
      assert p + ts == p;
    } else {
      StepKeepsTokens(s, p, ts[0]);
      assert p + ts == (p + [ts[0]]) + ts[1..];
      RunKeepsTokens(Step(s, ts[0]), p + [ts[0]], ts[1..]);
    }
  }

  /** The conversion keeps the numbers in their order and the operators as a
      bag; it never outputs ")" or any token that is neither a number nor an
      operator, except one "(" for every parenthesis left open, so balanced
      input yields numbers and operators only. */
  lemma {:induction false} InfixToPostfixKeepsTokens(ts: seq<Token>)
    ensures Numbers(InfixToPostfix(ts)) == Numbers(ts)
    ensures multiset(Operators(InfixToPostfix(ts))) == multiset(Operators(ts))
    ensures forall i :: 0 <= i < |InfixToPostfix(ts)| ==>
              IsNumber(InfixToPostfix(ts)[i]) || IsOperator(InfixToPostfix(ts)[i]) || InfixToPostfix(ts)[i] == "("
    ensures multiset(InfixToPostfix(ts))["("] == Unclosed(ts)
  {
    var s0 := State([], []);
    assert [] + ts == ts;
    RunKeepsTokens(s0, [], ts);
    var s := Run(s0, ts);
    FlushKeepsNumbers(s, ts);
    FlushKeepsOperators(s, ts);
    FlushEntries(s);
    FlushParens(s, ts);
  }

  lemma FlushKeepsNumbers(s: State, ts: seq<Token>)
    requires StackEntries(s.stack) && Numbers(s.out) == Numbers(ts)
    ensures Numbers(Flush(s)) == Numbers(ts)
  {
    MovedHasNoNumbers(s.stack);
    NumbersAppend(s.out, Reverse(s.stack));
  }

  lemma FlushKeepsOperators(s: State, ts: seq<Token>)
    requires KeepsOperators(s, ts)
    ensures multiset(Operators(Flush(s))) == multiset(Operators(ts))
  {
    ReverseOperators(s.stack);
    OperatorsAppend(s.out, Reverse(s.stack));
  }

  lemma FlushEntries(s: State)
    requires StackEntries(s.stack) && OutEntries(s.out)
    ensures forall i :: 0 <= i < |Flush(s)| ==> IsNumber(Flush(s)[i]) || IsOperator(Flush(s)[i]) || Flush(s)[i] == "("
  {
    var rev := Reverse(s.stack);
    ReverseIndex(s.stack);
    forall i | 0 <= i < |Flush(s)|
      ensures IsNumber(Flush(s)[i]) || IsOperator(Flush(s)[i]) || Flush(s)[i] == "("
    {
      if i < |s.out| {
        assert Flush(s)[i] == s.out[i];
      } else {
        assert Flush(s)[i] == s.stack[|s.stack| - 1 - (i - |s.out|)];
      }
    }
  }

  lemma FlushParens(s: State, ts: seq<Token>)
    requires OutEntries(s.out) && multiset(s.stack)["("] == Unclosed(ts)
    ensures multiset(Flush(s))["("] == Unclosed(ts)
  {
    ReverseMultiset(s.stack);
    assert "(" !in multiset(s.out) by {
      forall i | 0 <= i < |s.out| ensures s.out[i] != "(" {
        if s.out[i] == "(" {
          OperatorIsNoNumber(s.out[i]);
        }
      }
    }
  }

  /* ---------------------------------------------------------------------
     Precedence and associativity
     --------------------------------------------------------------------- */

  /** Each operator on the stack binds strictly less tightly than an operator
      directly above it. */
  predicate PrecedenceOrdered(st: seq<Token>) {
    forall i :: 0 <= i < |st| - 1 && IsOperator(st[i]) && IsOperator(st[i + 1]) ==> Prec(st[i]) < Prec(st[i + 1])
  }

  /** The stack stays ordered by precedence: an operator of equal precedence
      leaves the stack before the next one is pushed (left association), and
      one binding less tightly stays below until the tighter one is output. */
  lemma {:induction false} RunKeepsPrecedenceOrder(s: State, ts: seq<Token>)
    requires PrecedenceOrdered(s.stack)
    ensures PrecedenceOrdered(Run(s, ts).stack)
    decreases |ts|
  {
    if ts != [] {
      var t := ts[0];
      if IsNumber(t) {
      } else if IsOperator(t) {
        var r := PopOperators(s, Prec(t));
        var st := r.stack + [t];
        forall i | 0 <= i < |st| - 1 && IsOperator(st[i]) && IsOperator(st[i + 1])
          ensures Prec(st[i]) < Prec(st[i + 1])
        {
          if i < |r.stack| - 1 {
            assert st[i] == s.stack[i] && st[i + 1] == s.stack[i + 1];
          }
        }
      } else if t == "(" {
        var st := s.stack + ["("];
        forall i | 0 <= i < |st| - 1 && IsOperator(st[i]) && IsOperator(st[i + 1])
          ensures Prec(st[i]) < Prec(st[i + 1])
        {
          assert st[i] == s.stack[i] && st[i + 1] == s.stack[i + 1];
        }
      } else if t == ")" {
        var r := PopToParen(s);
        assert PrecedenceOrdered(r.stack) by {
          forall i | 0 <= i < |r.stack| - 1 && IsOperator(r.stack[i]) && IsOperator(r.stack[i + 1])
            ensures Prec(r.stack[i]) < Prec(r.stack[i + 1])
          {
            assert r.stack[i] == s.stack[i] && r.stack[i + 1] == s.stack[i + 1];
          }
        }
      }
      RunKeepsPrecedenceOrder(Step(s, t), ts[1..]);
    }
  }

  /* ---------------------------------------------------------------------
     Precedence and left association on three operands
     --------------------------------------------------------------------- */

  /** Reading one token, then the rest. */
  lemma RunCons(s: State, t: Token, rest: seq<Token>)
    ensures Run(s, [t] + rest) == Run(Step(s, t), rest)
  {
    assert ([t] + rest)[0] == t;
    assert ([t] + rest)[1..] == rest;
  }

  /** An operator pushed onto a stack whose top does not bind at least as
      tightly pops nothing. */
  lemma PushWithoutPop(s: State, o: Token)
    requires IsOperator(o)
    requires |s.stack| == 0 || !IsOperator(s.stack[|s.stack| - 1]) || Prec(s.stack[|s.stack| - 1]) < Prec(o)
    ensures Step(s, o) == State(s.out, s.stack + [o])
  {
    StepCases(s, o);
    assert OperatorStop(s.stack, Prec(o)) == |s.stack|;
    assert s.stack[|s.stack|..] == [];
    assert s.stack[..|s.stack|] == s.stack;
  }

  /** An operator met by a lone operator binding at least as tightly
      outputs it, then takes its place. */
  lemma PushAfterPop(out: seq<Token>, x: Token, o: Token)
    requires IsOperator(x) && IsOperator(o) && Prec(x) >= Prec(o)
    ensures Step(State(out, [x]), o) == State(out + [x], [o])
  {
    var s := State(out, [x]);
    StepCases(s, o);
    assert OperatorStop([x], Prec(o)) == 0 by {
      assert [x][..0] == [];
    }
    assert [x][0..] == [x] && [x][..0] == [];
    assert Reverse([x]) == [x] by {
      assert [x][..0] == [];
    }
  }

  lemma RunNumber(s: State, t: Token, rest: seq<Token>)
    requires IsNumber(t)
    ensures Run(s, [t] + rest) == Run(State(s.out + [t], s.stack), rest)
  {
    RunCons(s, t, rest);
    StepCases(s, t);
  }

  lemma FlushTwo(out: seq<Token>, x: Token, y: Token)
    ensures Flush(State(out, [x, y])) == out + [y, x]
  {
    assert [x, y][..1] == [x];
    assert Reverse([x]) == [x] by {
      assert [x][..0] == [];
    }
  }

  lemma FlushOne(out: seq<Token>, x: Token)
    ensures Flush(State(out, [x])) == out + [x]
  {
    assert [x][..0] == [];
  }

  /** The first three tokens `a o1 b` leave a b on the output and `o1` on
      the stack. */
  lemma RunFirstOperand(a: Token, o1: Token, b: Token, rest: seq<Token>)
    requires IsNumber(a) && IsNumber(b) && IsOperator(o1)
    ensures Run(State([], []), [a, o1, b] + rest) == Run(State([a, b], [o1]), rest)
  {
    calc {
      Run(State([], []), [a, o1, b] + rest);
      { assert [a, o1, b] + rest == [a] + ([o1] + ([b] + rest)); RunNumber(State([], []), a, [o1] + ([b] + rest)); assert [] + [a] == [a]; }
      Run(State([a], []), [o1] + ([b] + rest));
      { RunCons(State([a], []), o1, [b] + rest); PushWithoutPop(State([a], []), o1); assert [] + [o1] == [o1]; }
      Run(State([a], [o1]), [b] + rest);
      { RunNumber(State([a], [o1]), b, rest); assert [a] + [b] == [a, b]; }
      Run(State([a, b], [o1]), rest);
    }
  }

  /** `a o1 b o2 c` with `o2` binding more tightly than `o1` applies `o2`
      first: the output is a b c o2 o1. */
  lemma {:induction false} TighterOperatorAppliesFirst(a: Token, o1: Token, b: Token, o2: Token, c: Token)
    requires IsNumber(a) && IsNumber(b) && IsNumber(c)
    requires IsOperator(o1) && IsOperator(o2) && Prec(o1) < Prec(o2)
    ensures InfixToPostfix([a, o1, b, o2, c]) == [a, b, c, o2, o1]
  {
    calc {
      Run(State([], []), [a, o1, b, o2, c]);
      { assert [a, o1, b, o2, c] == [a, o1, b] + ([o2] + [c]); RunFirstOperand(a, o1, b, [o2] + [c]); }
      Run(State([a, b], [o1]), [o2] + [c]);
      { RunCons(State([a, b], [o1]), o2, [c]); PushWithoutPop(State([a, b], [o1]), o2); assert [o1] + [o2] == [o1, o2]; }
      Run(State([a, b], [o1, o2]), [c]);
      { assert [c] == [c] + []; RunNumber(State([a, b], [o1, o2]), c, []); assert [a, b] + [c] == [a, b, c]; }
      Run(State([a, b, c], [o1, o2]), []);
    }
    FlushTwo([a, b, c], o1, o2);
    assert [a, b, c] + [o2, o1] == [a, b, c, o2, o1];
  }

  /** `a o1 b o2 c` with `o1` binding at least as tightly as `o2` applies
      `o1` first, so operators of one level associate to the left: the
      output is a b o1 c o2. */
  lemma {:induction false} LooserOrEqualOperatorAppliesLast(a: Token, o1: Token, b: Token, o2: Token, c: Token)
    requires IsNumber(a) && IsNumber(b) && IsNumber(c)
    requires IsOperator(o1) && IsOperator(o2) && Prec(o1) >= Prec(o2)
    ensures InfixToPostfix([a, o1, b, o2, c]) == [a, b, o1, c, o2]
  {
    calc {
      Run(State([], []), [a, o1, b, o2, c]);
      { assert [a, o1, b, o2, c] == [a, o1, b] + ([o2] + [c]); RunFirstOperand(a, o1, b, [o2] + [c]); }
      Run(State([a, b], [o1]), [o2] + [c]);
      { RunCons(State([a, b], [o1]), o2, [c]); PushAfterPop([a, b], o1, o2); assert [a, b] + [o1] == [a, b, o1]; }
      Run(State([a, b, o1], [o2]), [c]);
      { assert [c] == [c] + []; RunNumber(State([a, b, o1], [o2]), c, []); assert [a, b, o1] + [c] == [a, b, o1, c]; }
      Run(State([a, b, o1, c], [o2]), []);
    }
    FlushOne([a, b, o1, c], o2);
    assert [a, b, o1, c] + [o2] == [a, b, o1, c, o2];
  }
}

=== FILE: tokens.dfy ===
/** Tokens of the arithmetic expression exercise and the decimal text of
    numbers.  A token is a string: a run of digits, or one of the six
    characters ( ) + - * /.  The tokenizer removes the spaces, then scans
    left to right, taking a maximal digit run or a single symbol at each
    position and skipping any other character. */
module Tokens {
  import opened Sequences

  type Token = string

  predicate IsDigit(c: char) {
    '0' <= c <= '9'
  }

  predicate IsSymbol(c: char) {
    c == '(' || c == ')' || c == '+' || c == '-' || c == '*' || c == '/'
  }

  /** A whole token made of digits (one or more). */
  predicate IsNumber(t: Token) {
    |t| > 0 && forall i :: 0 <= i < |t| ==> IsDigit(t[i])
  }

  /** One of the four binary operators. */
  predicate IsOperator(t: Token) {
    |t| == 1 && (t[0] == '+' || t[0] == '-' || t[0] == '*' || t[0] == '/')
  }

  /* ---------------------------------------------------------------------
     Decimal text of numbers (int(t) and str(n))
     --------------------------------------------------------------------- */

  predicate AllDigits(s: string) {
    forall i :: 0 <= i < |s| ==> IsDigit(s[i])
  }

  function DigitValue(c: char): nat
    requires IsDigit(c)
  {
    (c as int - '0' as int) as nat
  }

  function DigitChar(d: nat): (c: char)
    requires d < 10
    ensures IsDigit(c) && DigitValue(c) == d
  {
    ('0' as int + d) as char
  }

  /** The value of a digit string, most significant digit first. */
  function ParseNat(s: string): nat
    requires AllDigits(s)
  {
    if |s| == 0 then 0 else 10 * ParseNat(s[..|s| - 1]) + DigitValue(s[|s| - 1])
  }

  /** The decimal text of a natural number, without leading zeros. */
  function ShowNat(n: nat): (s: string)
    ensures IsNumber(s)
    ensures |s| == 1 || s[0] != '0'
  {
    if n < 10 then [DigitChar(n)] else ShowNat(n / 10) + [DigitChar(n % 10)]
  }

  /** The decimal text of an integer, with a leading minus sign when negative. */
  function Show(n: int): string {
    if n < 0 then "-" + ShowNat(-n) else ShowNat(n)
  }

  /** Reading back the text of a number gives the number. */
  lemma {:induction false} ParseShowNat(n: nat)
    ensures ParseNat(ShowNat(n)) == n
  {
    if n >= 10 {
      ParseShowNat(n / 10);
      var s := ShowNat(n);
      assert s[..|s| - 1] == ShowNat(n / 10);
    }
  }

  /* ---------------------------------------------------------------------
     The tokenizer (tokenize)
     --------------------------------------------------------------------- */

  /** `expr.replace(' ', '')`: only the space character is removed. */
  function RemoveSpaces(s: string): (r: string)
    ensures ' ' !in r
    ensures |r| <= |s|
    ensures ' ' !in s ==> r == s
    decreases |s|
  {
    if s == [] then []
    else if s[0] == ' ' then RemoveSpaces(s[1..])
    else
      [s[0]] + RemoveSpaces(s[1..])
  }

  /** Removing spaces works piece by piece, and a space alone vanishes: every
      other character is kept, in order. */
  lemma {:induction false} RemoveSpacesAppend(a: string, b: string)
    ensures RemoveSpaces(a + b) == RemoveSpaces(a) + RemoveSpaces(b)
    ensures RemoveSpaces(" ") == ""
    decreases |a|
  {
    if a == [] {
      assert a + b == b;
    } else {
      assert (a + b)[0] == a[0] && (a + b)[1..] == a[1..] + b;
      RemoveSpacesAppend(a[1..], b);
      if a[0] != ' ' {
        AppendAssoc([a[0]], RemoveSpaces(a[1..]), RemoveSpaces(b));
      }
    }
    assert " "[1..] == "";
  }

  /** Length of the run of digits `s` starts with. */
  function DigitRun(s: string): (n: nat)
    ensures n <= |s|
  {
    if s == [] || !IsDigit(s[0]) then 0 else 1 + DigitRun(s[1..])
  }

  /** The run is all digits, and is maximal. */
  lemma {:induction false} DigitRunIsMaximal(s: string)
    ensures forall i :: 0 <= i < DigitRun(s) ==> IsDigit(s[i])
    ensures DigitRun(s) < |s| ==> !IsDigit(s[DigitRun(s)])
    decreases |s|
  {
    if s != [] && IsDigit(s[0]) {
      DigitRunIsMaximal(s[1..]);
    }
  }

  predicate WellFormedToken(t: Token) {
    IsNumber(t) || (|t| == 1 && IsSymbol(t[0]))
  }

  /** The left-to-right scan for a digit run or one of the six symbols: a
      maximal digit run or one symbol is taken as a token; any other
      character is skipped. */
  function Scan(s: string): seq<Token>
    decreases |s|
  {
    if s == [] then []
    else if IsDigit(s[0]) then
      var n := DigitRun(s);
      [s[..n]] + Scan(s[n..])
    else if IsSymbol(s[0]) then [[s[0]]] + Scan(s[1..])
    else Scan(s[1..])
  }

  /** Every scanned token is a digit run or a single symbol. */
  lemma {:induction false} ScanWellFormed(s: string)
    ensures forall i :: 0 <= i < |Scan(s)| ==> WellFormedToken(Scan(s)[i])
    decreases |s|
  {
    if s != [] {
      if IsDigit(s[0]) {
        var n := DigitRun(s);
        ScanWellFormed(s[n..]);
        DigitRunIsMaximal(s);
        assert IsNumber(s[..n]);
      } else {
        ScanWellFormed(s[1..]);
      }
    }
  }

  /** Spaces removed, then scanned. */
  function Tokenize(s: string): (r: seq<Token>)
    ensures forall i :: 0 <= i < |r| ==> WellFormedToken(r[i])
  {
    ScanWellFormed(RemoveSpaces(s));
    Scan(RemoveSpaces(s))
  }

  function Concat(ts: seq<Token>): string {
    if ts == [] then [] else ts[0] + Concat(ts[1..])
  }

  /** Input made only of digits, spaces and the six symbols. */
  predicate OverAlphabet(s: string) {
    forall i :: 0 <= i < |s| ==> IsDigit(s[i]) || IsSymbol(s[i]) || s[i] == ' '
  }

  lemma {:induction false} RemoveSpacesKeepsAlphabet(s: string)
    requires OverAlphabet(s)
    ensures forall i :: 0 <= i < |RemoveSpaces(s)| ==> IsDigit(RemoveSpaces(s)[i]) || IsSymbol(RemoveSpaces(s)[i])
  {
    if s != [] {
      RemoveSpacesKeepsAlphabet(s[1..]);
    }
  }

  /** Over digits and symbols alone the scan skips nothing, so the tokens
      spell out the input, and no two number tokens are adjacent (each digit
      run is taken whole). */
  lemma {:induction false} ScanSpellsInput(s: string)
    requires forall i :: 0 <= i < |s| ==> IsDigit(s[i]) || IsSymbol(s[i])
    ensures Concat(Scan(s)) == s
    ensures forall i :: 0 <= i < |Scan(s)| - 1 ==> !(IsNumber(Scan(s)[i]) && IsNumber(Scan(s)[i + 1]))
    decreases |s|
  {
    if s != [] {
      var r := Scan(s);
      if IsDigit(s[0]) {
        var n := DigitRun(s);
        ScanSpellsInput(s[n..]);
        assert r == [s[..n]] + Scan(s[n..]);
        assert Concat(r) == s[..n] + Concat(Scan(s[n..]));
        assert s == s[..n] + s[n..];
        if |Scan(s[n..])| > 0 {
          DigitRunIsMaximal(s);
          assert !IsDigit(s[n]);
          assert Scan(s[n..])[0] == [s[n]];
        }
      } else {
        ScanSpellsInput(s[1..]);
        assert r == [[s[0]]] + Scan(s[1..]);
        assert Concat(r) == [s[0]] + Concat(Scan(s[1..]));
        assert s == [s[0]] + s[1..];
      }
    }
  }

  /** For input over digits, spaces and the six symbols, the tokens spell out
      the input with its spaces removed, and every digit run is one token. */
  lemma {:induction false} TokenizeSpellsInput(s: string)
    requires OverAlphabet(s)
    ensures Concat(Tokenize(s)) == RemoveSpaces(s)
    ensures forall i :: 0 <= i < |Tokenize(s)| - 1 ==> !(IsNumber(Tokenize(s)[i]) && IsNumber(Tokenize(s)[i + 1]))
  {
    RemoveSpacesKeepsAlphabet(s);
    ScanSpellsInput(RemoveSpaces(s));
  }

  /** Scanning two pieces separately is scanning them together, as long as a
      digit run does not straddle the seam. */
  lemma {:induction false} ScanAppend(a: string, b: string)
    requires a == [] || b == [] || !IsDigit(a[|a| - 1]) || !IsDigit(b[0])
    ensures Scan(a + b) == Scan(a) + Scan(b)
    decreases |a|
  {
    if a == [] {
      assert a + b == b;
    } else if IsDigit(a[0]) {
      var n := DigitRun(a);
      DigitRunIsMaximal(a);
      DigitRunPrefix(a, b, n);
      ScanAppend(a[n..], b);
      ScanAfterRun(a, b, n);
    } else {
      ScanAppend(a[1..], b);
      ScanAfterChar(a, b);
    }
  }

  /** One unfolding of the scan at a first character of `a` that starts no
      digit run. */
  lemma ScanAfterChar(a: string, b: string)
    requires a != [] && !IsDigit(a[0])
    requires Scan(a[1..] + b) == Scan(a[1..]) + Scan(b)
    ensures Scan(a + b) == Scan(a) + Scan(b)
  {
    SliceOfAppend(a, b, 1);
    assert (a + b)[0] == a[0];
    if IsSymbol(a[0]) {
      AppendAssoc([[a[0]]], Scan(a[1..]), Scan(b));
    }
  }

  /** One unfolding of the scan at a digit run of `a` shared by `a + b`. */
  lemma ScanAfterRun(a: string, b: string, n: nat)
    requires a != [] && IsDigit(a[0]) && n == DigitRun(a) && DigitRun(a + b) == n
    requires Scan(a[n..] + b) == Scan(a[n..]) + Scan(b)
    ensures Scan(a + b) == Scan(a) + Scan(b)
  {
    SliceOfAppend(a, b, n);
    ScanAtRun(a, n);
    ScanAtRun(a + b, n);
    AppendAssoc([a[..n]], Scan(a[n..]), Scan(b));
  }

  lemma SliceOfAppend(a: string, b: string, n: nat)
    requires n <= |a|
    ensures (a + b)[..n] == a[..n] && (a + b)[n..] == a[n..] + b
  {
  }

  lemma ScanAtRun(s: string, n: nat)
    requires s != [] && IsDigit(s[0]) && n == DigitRun(s)
    ensures Scan(s) == [s[..n]] + Scan(s[n..])
  {
  }

  lemma {:induction false} DigitRunPrefix(a: string, b: string, n: nat)
    requires n == DigitRun(a)
    requires n < |a| || b == [] || !IsDigit(b[0])
    ensures DigitRun(a + b) == n
    decreases |a|
  {
    if a == [] {
      assert a + b == b;
    } else if IsDigit(a[0]) {
      assert (a + b)[1..] == a[1..] + b;
      DigitRunPrefix(a[1..], b, n - 1);
    }
  }

  /** The text of a natural number scans as that one token. */
  lemma ScanNumber(n: nat)
    ensures Scan(ShowNat(n)) == [ShowNat(n)]
  {
    var s := ShowNat(n);
    DigitRunWhole(s);
    assert s[..|s|] == s;
    assert s[|s|..] == [];
  }

  lemma {:induction false} DigitRunWhole(s: string)
    requires AllDigits(s)
    ensures DigitRun(s) == |s|
    decreases |s|
  {
    if s != [] {
      DigitRunWhole(s[1..]);
    }
  }

  /** A single symbol scans as itself. */
  lemma ScanSymbol(c: char)
    requires IsSymbol(c)
    ensures Scan([c]) == [[c]]
  {
    assert [c][1..] == [];
  }
}

=== FILE: traversal_tree.dfy ===
/** Model of the search tree exercise with the three classical traversals.
    Unlike the strict search tree, insertion sends values equal to a node to
    its right, so duplicates are kept: left < node <= right. */
module TraversalTree {
  import opened BinaryTree
  import opened Sequences

  predicate ValuesAtLeast(t: Tree, v: int) {
    forall x :: x in Values(t) ==> v <= x
  }

  /** Order at every node: left < node <= right. */
  predicate IsSearchTree(t: Tree) {
    match t
    case Nil => true
    case Node(v, l, r) => IsSearchTree(l) && IsSearchTree(r) && ValuesBelow(l, v) && ValuesAtLeast(r, v)
  }

  predicate NonDecreasing(s: seq<int>) {
    forall i, j :: 0 <= i < j < |s| ==> s[i] <= s[j]
  }

  /** Adds exactly one node holding `v`: left when smaller, right otherwise. */
  function Insert(t: Tree, v: int): (r: Tree)
    ensures Elements(r) == Elements(t) + multiset{v}
  {
    match t
    case Nil => Node(v, Nil, Nil)
    case Node(x, l, rt) =>
      if v < x then Node(x, Insert(l, v), rt)
      else Node(x, l, Insert(rt, v))
  }

  /** Insertion adds one node and keeps the values it had. */
  lemma {:induction false} InsertAddsOneNode(t: Tree, v: int)
    ensures Size(Insert(t, v)) == Size(t) + 1
    ensures Values(Insert(t, v)) == Values(t) + {v}
  {
    match t
    case Nil =>
    case Node(x, l, rt) =>
      if v < x {
        InsertAddsOneNode(l, v);
        assert Insert(t, v) == Node(x, Insert(l, v), rt);
        AddToLeft(Values(l), v, x, Values(rt));
      } else {
        InsertAddsOneNode(rt, v);
        assert Insert(t, v) == Node(x, l, Insert(rt, v));
        AddToRight(Values(l), x, Values(rt), v);
      }
  }

  lemma AddToLeft(a: set<int>, v: int, x: int, b: set<int>)
    ensures (a + {v}) + {x} + b == (a + {x} + b) + {v}
  {
  }

  lemma AddToRight(a: set<int>, x: int, b: set<int>, v: int)
    ensures a + {x} + (b + {v}) == (a + {x} + b) + {v}
  {
  }

  /** Insertion keeps left < node <= right at every node. */
  lemma {:induction false} InsertKeepsOrder(t: Tree, v: int)
    ensures IsSearchTree(t) ==> IsSearchTree(Insert(t, v))
  {
    match t
    case Nil =>
    case Node(x, l, rt) =>
      if IsSearchTree(t) {
        if v < x {
          InsertKeepsOrder(l, v);
          InsertKeepsBelow(l, v, x);
          assert Insert(t, v) == Node(x, Insert(l, v), rt);
        } else {
          InsertKeepsOrder(rt, v);
          InsertKeepsAtLeast(rt, v, x);
          assert Insert(t, v) == Node(x, l, Insert(rt, v));
        }
      }
  }

  lemma InsertKeepsBelow(t: Tree, v: int, x: int)
    requires ValuesBelow(t, x) && v < x
    ensures ValuesBelow(Insert(t, v), x)
  {
    InsertAddsOneNode(t, v);
  }

  lemma InsertKeepsAtLeast(t: Tree, v: int, x: int)
    requires ValuesAtLeast(t, x) && x <= v
    ensures ValuesAtLeast(Insert(t, v), x)
  {
    InsertAddsOneNode(t, v);
  }

  /** Inserts the values one after another, as the demonstration driver does. */
  function InsertAll(t: Tree, xs: seq<int>): (r: Tree)
    ensures Elements(r) == Elements(t) + multiset(xs)
    ensures IsSearchTree(t) ==> IsSearchTree(r)
    decreases |xs|
  {
    if xs == [] then t
    else
      assert xs == [xs[0]] + xs[1..];
      InsertKeepsOrder(t, xs[0]);
      InsertAll(Insert(t, xs[0]), xs[1..])
  }

  lemma MultisetOfJoin(a: seq<int>, b: seq<int>, c: seq<int>)
    ensures multiset(a + b + c) == multiset(a) + multiset(b) + multiset(c)
  {
  }

  /** Left subtree, node, right subtree; absent children are skipped. */
  function InOrder(t: Tree): (r: seq<int>)
    requires t.Node?
    ensures |r| > 0
  {
    var a := if t.left.Node? then InOrder(t.left) else [];
    var b := if t.right.Node? then InOrder(t.right) else [];
    a + [t.value] + b
  }

  /** Node, left subtree, right subtree. */
  function PreOrder(t: Tree): (r: seq<int>)
    requires t.Node?
    ensures |r| > 0 && r[0] == t.value
  {
    var a := if t.left.Node? then PreOrder(t.left) else [];
    var b := if t.right.Node? then PreOrder(t.right) else [];
    [t.value] + (a + b)
  }

  /** Left subtree, right subtree, node. */
  function PostOrder(t: Tree): (r: seq<int>)
    requires t.Node?
    ensures |r| > 0 && r[|r| - 1] == t.value
  {
    var a := if t.left.Node? then PostOrder(t.left) else [];
    var b := if t.right.Node? then PostOrder(t.right) else [];
    (a + b) + [t.value]
  }

  /** Each traversal lists every value of the tree exactly as often as the
      tree holds it. */
  lemma {:induction false} TraversalsListElements(t: Tree)
    requires t.Node?
    ensures multiset(InOrder(t)) == Elements(t)
    ensures multiset(PreOrder(t)) == Elements(t)
    ensures multiset(PostOrder(t)) == Elements(t)
  {
    InOrderListsElements(t);
    PreOrderListsElements(t);
    PostOrderListsElements(t);
  }

  lemma SingletonMultiset(v: int)
    ensures multiset([v]) == multiset{v}
  {
  }

  lemma {:induction false} InOrderListsElements(t: Tree)
    requires t.Node?
    ensures multiset(InOrder(t)) == Elements(t)
  {
    var a := if t.left.Node? then InOrder(t.left) else [];
    var b := if t.right.Node? then InOrder(t.right) else [];
    if t.left.Node? { InOrderListsElements(t.left); } else { assert multiset(a) == multiset{}; }
    if t.right.Node? { InOrderListsElements(t.right); } else { assert multiset(b) == multiset{}; }
    MultisetOfJoin(a, [t.value], b);
    SingletonMultiset(t.value);
  }

  lemma {:induction false} PreOrderListsElements(t: Tree)
    requires t.Node?
    ensures multiset(PreOrder(t)) == Elements(t)
  {
    var a := if t.left.Node? then PreOrder(t.left) else [];
    var b := if t.right.Node? then PreOrder(t.right) else [];
    if t.left.Node? { PreOrderListsElements(t.left); } else { assert multiset(a) == multiset{}; }
    if t.right.Node? { PreOrderListsElements(t.right); } else { assert multiset(b) == multiset{}; }
    MultisetOfJoin([t.value], a, b);
    AppendAssoc([t.value], a, b);
    SingletonMultiset(t.value);
    NodeFirstOrLast(multiset(a), t.value, multiset(b));
  }

  lemma {:induction false} PostOrderListsElements(t: Tree)
    requires t.Node?
    ensures multiset(PostOrder(t)) == Elements(t)
  {
    var a := if t.left.Node? then PostOrder(t.left) else [];
    var b := if t.right.Node? then PostOrder(t.right) else [];
    if t.left.Node? { PostOrderListsElements(t.left); } else { assert multiset(a) == multiset{}; }
    if t.right.Node? { PostOrderListsElements(t.right); } else { assert multiset(b) == multiset{}; }
    MultisetOfJoin(a, b, [t.value]);
    SingletonMultiset(t.value);
    NodeFirstOrLast(multiset(a), t.value, multiset(b));
  }

  lemma NodeFirstOrLast(a: multiset<int>, v: int, b: multiset<int>)
    ensures multiset{v} + a + b == a + multiset{v} + b
    ensures a + b + multiset{v} == a + multiset{v} + b
  {
  }

  /** The three traversals are permutations of one another and list every
      node once. */
  lemma {:induction false} TraversalsArePermutations(t: Tree)
    requires t.Node?
    ensures multiset(InOrder(t)) == multiset(PreOrder(t)) == multiset(PostOrder(t))
    ensures |InOrder(t)| == |PreOrder(t)| == |PostOrder(t)| == Size(t)
  {
    TraversalsListElements(t);
    ElementsCountNodes(t);
    assert |multiset(InOrder(t))| == |InOrder(t)|;
    assert |multiset(PreOrder(t))| == |PreOrder(t)|;
    assert |multiset(PostOrder(t))| == |PostOrder(t)|;
  }

  /** The in-order traversal of a search tree never decreases. */
  lemma {:induction false} InOrderNonDecreasing(t: Tree)
    requires t.Node? && IsSearchTree(t)
    ensures NonDecreasing(InOrder(t))
  {
    var a := if t.left.Node? then InOrder(t.left) else [];
    var b := if t.right.Node? then InOrder(t.right) else [];
    if t.left.Node? {
      InOrderNonDecreasing(t.left);
      TraversalsListElements(t.left);
      TraversalHoldsValues(t.left, a);
    }
    if t.right.Node? {
      InOrderNonDecreasing(t.right);
      TraversalsListElements(t.right);
      TraversalHoldsValues(t.right, b);
    }
    JoinNonDecreasing(a, t.value, b);
  }

  lemma TraversalHoldsValues(t: Tree, s: seq<int>)
    requires multiset(s) == Elements(t)
    ensures forall x :: x in s ==> x in Values(t)
  {
    ElementsCountNodes(t);
    forall x | x in s ensures x in Values(t) {
      assert x in multiset(s);
    }
  }

  lemma JoinNonDecreasing(a: seq<int>, v: int, b: seq<int>)
    requires NonDecreasing(a) && NonDecreasing(b)
    requires forall x :: x in a ==> x < v
    requires forall x :: x in b ==> v <= x
    ensures NonDecreasing(a + [v] + b)
  {
    var s := a + [v] + b;
    forall i, j | 0 <= i < j < |s| ensures s[i] <= s[j] {
      if j < |a| {
        assert s[i] == a[i] && s[j] == a[j];
      } else if i < |a| {
        assert s[i] == a[i] && s[i] in a;
        if j > |a| { assert s[j] == b[j - |a| - 1] && s[j] in b; }
      } else if i == |a| {
        assert s[j] == b[j - |a| - 1] && s[j] in b;
      } else {
        assert s[i] == b[i - |a| - 1] && s[j] == b[j - |a| - 1];
      }
    }
  }

  /** Building a tree from any non-empty list and reading it in order sorts
      the list, duplicates included. */
  lemma {:induction false} TreeSortsValues(xs: seq<int>)
    requires |xs| > 0
    ensures InsertAll(Nil, xs).Node?
    ensures NonDecreasing(InOrder(InsertAll(Nil, xs)))
    ensures multiset(InOrder(InsertAll(Nil, xs))) == multiset(xs)
  {
    var t := InsertAll(Nil, xs);
    assert xs[0] in multiset(xs);
    InOrderNonDecreasing(t);
    TraversalsListElements(t);
  }
}

=== FILE: wrappers.dfy ===
/** Failure-carrying result types shared by the tree models.
    - Option<T> stands for a Python value that may be None.
    - Result<T, E> stands for a computation that either returns a value or raises. */
module Wrappers {

  datatype Option<+T> = None | Some(value: T)

  datatype Result<+T, +E> = Success(value: T) | Failure(error: E)
}
